=== FILE: README.md ===
# WaveSQL session core, modelled in Dafny

WaveSQL wraps a MySQL server in a Python session object, `WaveSQL`
(`wavesql/database.py`). This project models that session's decision logic,
with every side effect replaced by a value passed in or returned. It covers
five parts:

- **Bootstrap** (`start`): find the `*_init_*.sql` scripts under the script
  root and sort them by the integer before the first `_` of the file name.
  Copy in the bundled default scripts that are missing, then discover again.
  Then probe the configured database:
  - if it exists, initialisation is skipped;
  - if it is missing (`ER_BAD_DB_ERROR`), every statement of every script
    runs on an admin connection, followed by one commit, and the first failing
    statement ends the process (`quit(0)`).
- **Session gate** (`_db_query`, `_db_call_procedure`): the protection check,
  input normalisation, the fetch-mode dispatch, error logging, and closing
  the cursor and connection in a `finally` that ends in `return result`.
- **Protection decorator** (`__protected`): an allow/deny rule over the
  caller's `self`.
- **Log sink** (`log`, `__save_log_query`, `__print_log`):
  - options left unset take the session's defaults;
  - the message is composed from the text, the positional arguments and the
    keyword arguments;
  - the backtrace is chosen;
  - the record is stored through the `insert_log` procedure;
  - the console line printed depends on whether storing returned a row,
    returned no row, or raised.
- **Connection factory** (`__db_connect`): it can override the database name
  without changing the session's configuration. A one-way "has ever
  connected" flag decides whether a failed connect is reported through the
  log sink or as a raw console line.

Modules:

| module | file | contents |
|---|---|---|
| `Wrappers` | wrappers.dfy | `Option` and `Result` |
| `Text` | text.dfy | Python's `sep.join`, `str.split` on one character, and `str.strip` |
| `Records` | records.dfy | exceptions, session settings, `log` arguments, console lines |
| `Sorting` | sorting.dfy | `sorted(..., key=...)` as a stable insertion sort |
| `Scripts` | scripts.dfy | the `*_init_*.sql` glob, the integer prefix, discovery |
| `Trace` | trace.dfy | the event trace of a bootstrap run and its projections |
| `Provision` | provision.dfy | copying the missing bundled scripts |
| `Connection` | connection.dfy | `__db_connect` |
| `Gate` | gate.dfy | `__protected`, `_db_query`, `_db_call_procedure` |
| `LogSink` | logsink.dfy | `log`, `__save_log_query`, `__print_log` |
| `Bootstrap` | bootstrap.dfy | `start` |

Outside effects become inputs:

- the listing below the script root is a sequence of files, each with its
  statement units;
- the bundled scripts are a map from file name to statement units;
- each server call (probe, admin connect, each statement, commit, each close,
  connect, execute, fetch) is an `Option<Exc>` or `Result<..., Exc>` saying
  whether it succeeded and with what;
- the caller of a protected method is a `Caller` value;
- the iteration order of the Python set of missing files is a caller-chosen
  sequence, required to list that set exactly once.

Outputs are values:

- `start` returns the trace of calls it made: copies, direct `__print_log`
  calls, `log` calls, statements executed, commit and closes. It also returns
  how it ended: completed, halted by `quit(0)`, or failed with an exception.
- A gate call returns what it sent, logged and closed, and the value it
  returned or the exception it raised.
- `log` returns the record it stores and the `__print_log` call it makes.

### Where the code differs from its own documentation

The model follows the code in each case.

- `_db_query` and `_db_call_procedure` say in their docstrings that errors
  are re-raised after logging. The `return result` in their `finally` clause
  discards the re-raised exception. The call returns `None`, or the fetched
  value when only the commit failed. Only a failed connect or a failed close
  escapes.
- `is_raise_on_fail` never makes anything raise. `__print_log` resolves it
  and then never reads it.
- A probe failure that is a mysql error other than `ER_BAD_DB_ERROR` is
  ignored silently. A non-mysql exception from the probe propagates out of
  `start`.
- "Database initialized!" is logged even when the admin connection, the
  commit or a close failed.
- A failing `insert_log` statement does not reach `log` as an exception,
  because the gate swallows it. `log` then sees "no row" and does not force
  the console echo. Only a failed connect or close forces it.
- When storing raised, the fallback console line carries the time at which
  `__print_log` was defined: its `def_time` default is evaluated once.
- Bundled files whose names do not match `*_init_*.sql` are never
  discovered. So they count as missing, and are copied again, on every run.
- After a failing statement or a failing commit, the cursor and the admin
  connection are not closed.

## Model

| member | source | states |
|---|---|---|
| `Text.JoinSplit` | wavesql/database.py:173 | joining the pieces of `s.split(c)` with `c` gives back `s` |
| `Text.JoinTerminated` | wavesql/database.py:224-231 | joining lines whose last one is empty is the same as ending every other line with the separator |
| `Text.SplitJoin` | wavesql/database.py:538 | splitting a `c`-join of `c`-free parts gives back exactly those parts |
| `Text.Strip` | wavesql/database.py:229 | the stripped code is the contiguous middle of the original: everything cut before and after it is whitespace, and a non-empty result neither starts nor ends with whitespace |
| `Text.StripStart` | wavesql/database.py:229 | the left half of the reference decomposition of `.strip()`: a suffix of the input, everything dropped in front of it is whitespace, and it does not start with whitespace |
| `Text.StripEnd` | wavesql/database.py:229 | the right half of that decomposition: a prefix of the input, everything dropped after it is whitespace, and it does not end with whitespace |
| `Text.StripIsBoth` | wavesql/database.py:229 | `.strip()` equals dropping the leading whitespace and then the trailing whitespace, so `Strip` agrees with the independent one-sided definitions |
| `Sorting.Sort` | wavesql/database.py:173 | the sorted list is ordered by key and is a permutation of the input |
| `Sorting.SortIsStable` | wavesql/database.py:173 | elements sharing a key keep their input order, as Python's `sorted` guarantees |
| `Sorting.InsertKeepsKeyOrder` | wavesql/database.py:173 | inserting one element puts it in front of the elements with its key and leaves their order alone |
| `Scripts.InitScripts` | wavesql/database.py:173 | a listed file is discovered iff its name matches `*_init_*.sql`, with no file added |
| `Scripts.InitScriptsOne` | wavesql/database.py:173 | a one-file listing yields that file iff its name matches the pattern, and nothing otherwise |
| `Scripts.InitScriptsAppend` | wavesql/database.py:173 | the glob keeps listing order and multiplicity: two listings in a row yield the first one's scripts, then the second one's |
| `Scripts.ParseIntText` | wavesql/database.py:173 | the prefix parser reads back every integer written in decimal, negative ones included |
| `Scripts.Discover` | wavesql/database.py:173 | discovery fails (ValueError) iff some init script's prefix is not an integer; otherwise it yields a permutation of the init scripts, ordered non-decreasingly by prefix |
| `Scripts.DiscoverIsStable` | wavesql/database.py:198 | scripts with the same prefix run in listing order |
| `Scripts.DiscoverOrdersByPrefix` | wavesql/database.py:173 | `0_init_db.sql`, `2_init_tables.sql`, `1_init_logs.sql` are discovered as db, logs, tables |
| `Provision.Provide` | wavesql/database.py:176-196 | the copy order has as many names as the missing set; each missing file is copied once with its own info line; when nothing is missing, the listing is unchanged and only the "All required SQL files found" line is printed; no statement runs |
| `Provision.EnumerationSize` | wavesql/database.py:180-186 | a duplicate-free enumeration of the missing set has exactly its size |
| `Provision.CopyAddsInitName` | wavesql/database.py:193 | one copy adds its name to the discovered names iff the name matches the init pattern, and removes none |
| `Provision.CopyAllNames` | wavesql/database.py:186-198 | after all copies, the discovered names are the old ones plus the copied init names |
| `Provision.ProvideThenMissing` | wavesql/database.py:176-199 | after provisioning every bundled init script is found, and what is still missing is exactly the bundled files that are not init scripts |
| `Provision.ProvideTwiceCopiesNothing` | wavesql/database.py:176-199 | a second run finds nothing missing iff every bundled file is an init script |
| `Connection.Target` | wavesql/database.py:303-310 | the connect arguments keep host, user and password, and take the override database when one is given |
| `Connection.Connect` | wavesql/database.py:299-330 | connects iff the server accepts, with the chosen row shape and the flag set; a failure re-raises the same exception, leaves the flag alone, and is logged iff a database was named and a connection once worked, echoed raw iff a database was named and none did |
| `Connection.FlagRecordsAnySuccess` | wavesql/database.py:315 | after any sequence of connects, the flag is set iff it was set before or one of them succeeded |
| `Connection.AfterSuccessFailuresAreLogged` | wavesql/database.py:319-329 | once any connect worked, a later failure for a named database goes through `log`, never the raw print |
| `Gate.Guard` | wavesql/database.py:157-168 | a call proceeds iff protection is off or the caller's `self` is an instance of the session's class; otherwise it raises the "is protected" PermissionError naming the method |
| `Gate.AnySessionInstanceAdmitted` | wavesql/database.py:163-164 | any instance of the session's class is admitted, not only the owning session |
| `Gate.BareCallerRefused` | wavesql/database.py:159-166 | a caller with no `self` is refused iff protection is on |
| `Gate.NormaliseIdempotent` | wavesql/database.py:369-370 | normalising inputs twice equals normalising once, so a tuple passes unchanged |
| `Gate.Normalise` | wavesql/database.py:429-430 | the inputs sent are always a tuple: the tuple itself, or a one-element tuple of the value |
| `Gate.Fetch` | wavesql/database.py:374-377 | fetch 1 gives the first row, or None iff there is no row; fetch 2 gives all rows; any other mode gives None |
| `Gate.DictRowLookup` | wavesql/database.py:313 | in a dictionary row each column is found under its name, with the last value of that name |
| `Gate.Query` | wavesql/database.py:365-392 | a query raises iff protection refuses, the connect fails or a close fails; it sends the normalised inputs iff it got past the connect, and then always closes the cursor |
| `Gate.Procedure` | wavesql/database.py:425-453 | a procedure call raises iff protection refuses, the connect fails or a close fails; it sends the normalised inputs iff it got past the connect, then always closes the cursor; it logs only once something was sent |
| `Gate.RefusedCallDoesNothing` | wavesql/database.py:157-166 | a refused call opens no connection, sends nothing, changes no flag and raises the PermissionError |
| `Gate.ConnectFailurePropagates` | wavesql/database.py:365 | a failed connect propagates: nothing sent, logged by the gate or closed |
| `Gate.QueryClosesOnEveryPath` | wavesql/database.py:389-391 | once connected, the cursor is always closed, and the connection too unless closing the cursor raised |
| `Gate.QueryErrorsSwallowed` | wavesql/database.py:380-392 | without close failures a query always returns: None after a failed execute, the completed fetch after a failed commit, each time after logging `DB_QUERY: <query>` |
| `Gate.QueryFetchFailureSwallowed` | wavesql/database.py:372-392 | a fetch that raises after a good execute is logged as `DB_QUERY: <query>` and the query returns None |
| `Gate.QueryReturnsFetch` | wavesql/database.py:372-379 | without errors a query returns the fetch dispatch of its rows and logs nothing |
| `Gate.DrainLastWins` | wavesql/database.py:434-438 | looping over the stored result sets leaves the fetch of the last set |
| `Gate.ProcedureReturnsLastSet` | wavesql/database.py:425-453 | a procedure returns the last result set's fetch (None with no sets or a mode other than 1 and 2), and logs iff the commit failed |
| `Gate.ProcedureErrorSwallowed` | wavesql/database.py:441-453 | a failed `callproc` is logged as `DB_PROCEDURE: <name>` and the call returns None |
| `Gate.DrainStopsAtFailure` | wavesql/database.py:434-438 | the loop over the stored result sets stops at the first one whose fetch raises, leaving the previous set's fetch (or the initial value) |
| `Gate.ProcedureFetchFailureSwallowed` | wavesql/database.py:434-453 | a result set whose fetch raises mid-loop is logged as `DB_PROCEDURE: <name>`, and the call returns the previous set's fetch, or None when it was the first |
| `Gate.ProcedureClosesOnEveryPath` | wavesql/database.py:450-452 | once connected, a procedure call sends the normalised inputs, always closes the cursor, closes the connection iff closing the cursor did not raise, and sets the connected flag |
| `LogSink.ResolveDefaults` | wavesql/database.py:518-529 | a call passing every option ignores the session's defaults; a call passing none takes all of them |
| `LogSink.TextPart` | wavesql/database.py:531 | the text contributes nothing iff it is the empty string; any other string is its own part, and an exception contributes its text |
| `LogSink.KwargPart` | wavesql/database.py:533-536 | no keywords give no part; otherwise one part, the `key=value` strings in call order joined by the separator |
| `LogSink.KwargPartSplits` | wavesql/database.py:533-536 | with a one-character separator absent from every key and value, the keyword part splits back into one `key=value` string per argument |
| `LogSink.Parts` | wavesql/database.py:531-536 | the parts are exactly the text part, then the positional arguments in order, then the keyword part |
| `LogSink.MessageSplitsIntoParts` | wavesql/database.py:538 | with a one-character separator absent from the parts, the message splits back into exactly its parts |
| `LogSink.MessageOfTextAlone` | wavesql/database.py:531-538 | with no other arguments, an empty text gives the empty message and any other text is the message itself |
| `LogSink.EmptyExceptionKeepsItsPlace` | wavesql/database.py:531 | an exception with empty text still takes a part, so the message starts with the separator |
| `LogSink.Backtrace` | wavesql/database.py:540-545 | the backtrace is empty iff neither `err` nor `text` is an exception; `err` takes precedence over `text` |
| `LogSink.SaveRequest` | wavesql/database.py:455-468 | storing calls `insert_log` with the tuple (level as decimal text, module, message, backtrace), fetching one dictionary row from the configured database, and always passes the protection check |
| `LogSink.Persist` | wavesql/database.py:455-468 | storing raises iff the connect or a close raises |
| `LogSink.FailedInsertIsNoRow` | wavesql/database.py:441-453 | a failing `insert_log` statement reaches the sink as "no row", not as an exception |
| `LogSink.StoredRowIsLastSetsFirst` | wavesql/database.py:434-438 | the row the sink sees is the first row of the procedure's last result set, keyed by column |
| `LogSink.Log` | wavesql/database.py:546-558 | the stored record has the resolved level, module, message and backtrace; a line is printed iff storing raised or console output is on; a stored row prints from the row, with the backtrace only on request; otherwise the defaults, the message and the storing exception or the backtrace are printed |
| `LogSink.RaiseFlagIgnored` | wavesql/database.py:566-567 | `is_raise_on_fail`, passed or defaulted, changes nothing a `log` call does |
| `LogSink.Render` | wavesql/database.py:572-585 | a line without a row fails with KeyError iff the default colour is unknown; a row's colour name, date, level, module and message override the defaults, and unknown colours fall back to red |
| `LogSink.SinkLinesRender` | wavesql/database.py:582 | every line the sink prints renders, so it never hits the KeyError |
| `LogSink.EmptyBacktraceEndsInNewline` | wavesql/database.py:584-585 | an empty backtrace still adds a trailing newline |
| `LogSink.RaisedEchoLine` | wavesql/database.py:549-556 | when storing raised, the printed line is LIGHTRED, stamped at definition time, `ERROR`/`logs`, with the message and the exception as backtrace |
| `LogSink.NoRowEchoLine` | wavesql/database.py:554-556 | when no row came back, the line is stamped now, `ERROR`/`logs`, with the message and the backtrace even if empty |
| `LogSink.RowEchoLine` | wavesql/database.py:557-558 | a stored row prints its own level, module and message, with a backtrace iff backtrace echo is on and there was an exception |
| `LogSink.QuietWhenConsoleOff` | wavesql/database.py:553 | with console output off and no storing exception, nothing is printed |
| `Bootstrap.PlanOrder` | wavesql/database.py:218-219 | statement j of file i is at its file's offset plus j, and every file's statements come before the next file's |
| `Bootstrap.FirstFailure` | wavesql/database.py:218-236 | finds no failure iff no statement fails; otherwise a failing position with no failure before it |
| `Bootstrap.InitErrorMessage` | wavesql/database.py:223-231 | whatever the fields hold, the failure report is the header line, `File: ` and the path, `Object: ` and the object name, `SQL Code:`, the stripped code and the exception text, each followed by a newline |
| `Bootstrap.InitErrorMessageLines` | wavesql/database.py:223-231 | when no field holds a newline, the report splits into exactly its seven lines: header, file, object, `SQL Code:`, the stripped code, the exception, and the empty last line |
| `Bootstrap.Initialise` | wavesql/database.py:211-246 | it halts iff the admin connection opened and a statement failed; then the statements up to that one ran in plan order, with no commit, and its report is the only event after them; without a failure all statements ran in plan order, then the one commit, and no statement after it; a failed admin connection runs nothing yet logs "Database initialized!"; no close follows a failed statement or commit; after the commit the cursor is closed iff the commit succeeded and the connection iff the commit and the cursor close did, the first of the three to raise is logged as "Error initializing the database:" just before "Database initialized!", and with none raising the commit is followed by both closes and that log |
| `Bootstrap.Finalise` | wavesql/database.py:238-246 | the commit comes first and "Database initialized!" last; each close happens iff every step before it succeeded; the first of commit, cursor close and connection close to raise is logged as "Error initializing the database:" right before the last log; with none raising the events are commit, cursor close, connection close, last log |
| `Bootstrap.FinalFailureCases` | wavesql/database.py:238-241 | the exception that reaches the handler is the commit's if it raised, else the cursor close's if that raised, else the connection close's |
| `Bootstrap.CompleteEvents` | wavesql/database.py:218-246 | when every statement succeeds, they all run in plan order, then one commit, no statement after it, and the closing steps as in `Finalise` |
| `Bootstrap.Start` | wavesql/database.py:172-277 | a discovery failure ends with ValueError; a normal end is always announced last by "All is good !"; only a missing database can halt; other mysql probe errors are ignored and non-mysql ones propagate; at most one commit; statements run only when the database was missing |
| `Bootstrap.AfterProvision` | wavesql/database.py:198-246 | after provisioning, a failed second discovery ends with ValueError; otherwise the same rules as `Start` for the probe, halting, commits and statements |
| `Bootstrap.ExistingDatabaseSkips` | wavesql/database.py:201-208 | an existing database logs "Initializing skipped!" then "All is good !", with no statement or commit |
| `Bootstrap.OtherProbeErrorIgnored` | wavesql/database.py:209-210 | another mysql probe error leaves only "All is good !" after provisioning |
| `Bootstrap.MissingDatabaseRunsEverything` | wavesql/database.py:210-240 | with a missing database and no failures, the provisioning events come first, then every statement in plan order, then the one commit, and no statement after it |
| `Bootstrap.FirstFailureHalts` | wavesql/database.py:220-236 | the first failing statement halts the run after exactly the statements up to it, with no commit and its report last |
| `Bootstrap.AdminFailureStillAnnounced` | wavesql/database.py:241-246 | a failed admin connection is logged, and "Database initialized!" and "All is good !" follow |
| `Bootstrap.StartCopiesMissing` | wavesql/database.py:176-198 | whenever the first discovery succeeds, even if the second one raises, the files copied are exactly the missing ones, in the chosen order |

## Left out

- Filesystem work is replaced by sequences and maps: `rglob`, `mkdir`,
  `shutil.copy` and `read_files_to_vars`. So are the two `FileNotFoundError`
  checks for the bundled folder and files (lines 184-190). The bundle is a
  map, so a listed file always exists. After a copy, the listing is modelled
  as replacing any root file of that name and appending the copy.
- The bridge emission of lines 248-275 is left out. It writes Python files
  built by the SQL-file collaborators `SqlFileObject` and `SqlFileQueries`,
  which are not part of this model. Their parsing of a script into statement
  units is an input.
- `Bootstrap.PathText`: how `SqlFileObject` renders `file_path` on the
  "File:" line of a failure report (lines 223-231) is not part of this
  model; the model writes the root, the folders and the name joined by `/`.
- The constructor (lines 87-154) is left out: type checks, config parsing,
  `run_path`, and `is_auto_start`. So is the empty `is_try_update_db` branch
  (203-205).
- Stack inspection (`inspect.stack`) becomes the `Caller` value.
- `log`'s recursion is not run. When the gate logs an error, the model
  records the `log` call instead of running it. `start` likewise records its
  `log` calls. `LogSink.Log` gives the meaning of one such call, given what
  storing returned.
- Console details are not modelled: colorama codes, timestamp formatting and
  the `pprint` branch (line 591 calls the module itself). The lines
  `__print_log` prints are modelled structurally (`ConsoleLine`), including
  where their timestamp comes from.
- Reading a stored row's `log_date` with `.strftime` could raise if the
  value were not a date. This is not modelled. So `log` never raises in the
  model, and the fallback `__print_log` calls at lines 235 and 245 are
  unreachable.
- The model assumes `is_pprint` is off. When it is on, line 591 calls the
  imported `pprint` module itself (line 30), which raises TypeError on every
  console line: the direct `__print_log` calls of `start` at lines 194 and
  196 then raise, and so does every `log` call that prints.
- `Records.FormatException` keeps only the final `Type: message` line of
  `traceback.format_exception` (just `Type` for an empty message); the
  frame lines are not modelled. A mysql error is always named
  `mysql.connector.errors.Error`, where Python prints the real subclass
  (such as `mysql.connector.errors.ProgrammingError`), because the driver's
  exception hierarchy is not part of this model.
- The colour table `LOG_COLORS` is not part of this model. Its keys are taken
  from the level table in the class documentation.
- Connection: `__db_connect`'s `TypeError` for a non-string database cannot
  arise, because the parameter is typed. Concurrency and real driver
  semantics are outcome parameters.
- `Scripts.ParseInt`: accepts only an optional sign followed by ASCII
  digits. Python's `int` also accepts surrounding whitespace, `_` between
  digits, and non-ASCII digits. The prefix before the first `_` never
  contains `_`.
- `Text.Strip`: removes the ASCII whitespace Python's `str.strip` removes
  (space, `\t`, `\n`, `\v`, `\f`, `\r` and the separators 0x1C-0x1F), but
  not the non-ASCII space characters such as U+0085 and U+00A0.
- `quit(0)` is the `Halted` outcome, not a process exit.
- `wavesql/python/database.py` (a generated subclass that only forwards
  constructor arguments) and `wavesql/errors.py` (two unused exception
  classes) are outside the core.

=== FILE: bootstrap.dfy ===
/** The bootstrap orchestrator `start` (`wavesql/database.py:172-277`):
    discover the init scripts, provision the missing bundled ones, discover
    again, then probe the configured database. If it exists, initialisation is
    skipped. If it does not (`ER_BAD_DB_ERROR`), every statement of every
    script runs in order on an admin connection, with one commit at the end
    and a halt at the first failing statement. */
module Bootstrap {
  import opened Wrappers
  import opened Records
  import opened Scripts
  import opened Trace
  import opened Provision
  import Text

  /** Everything `start` reads from outside: the script root and its listing,
      the bundled defaults and the order the missing set is walked in, and the
      outcome of each server call (`None` when it succeeded). `failures` maps a
      statement's position in the run plan to the exception `execute` raises
      for it. */
  datatype Environment = Environment(
    root: string,
    tree: seq<ScriptFile>,
    bundled: Bundle,
    copyOrder: seq<string>,
    probe: Option<Exc>,           // `connect(**config)` and `cnx.close()`
    admin: Option<Exc>,           // `connect(host, user, password)` and `connection.cursor()`
    failures: map<nat, Exc>,
    commit: Option<Exc>,
    cursorClose: Option<Exc>,
    connectionClose: Option<Exc>)

  /** How `start` ends: normally, by `quit(0)`, or with an exception propagating. */
  datatype Outcome = Completed | Halted | Failed(error: Exc)

  datatype StartRun = StartRun(events: seq<Event>, outcome: Outcome)

  // ----------------------------------------------------------------- the plan

  /** The statements of one file, in file order. */
  function FileSteps(f: ScriptFile): (s: seq<Step>)
    ensures |s| == |f.units|
    ensures forall j | 0 <= j < |f.units| :: s[j] == Step(f.path, f.units[j])
  {
    seq(|f.units|, j requires 0 <= j < |f.units| => Step(f.path, f.units[j]))
  }

  /** The nested loop of lines 218-219: every statement of every file, files in
      discovery order and statements in file order. */
  function Plan(files: seq<ScriptFile>): seq<Step>
    decreases |files|
  {
    if |files| == 0 then [] else FileSteps(files[0]) + Plan(files[1..])
  }

  /** Where the statements of file `i` start in the plan. */
  function Offset(files: seq<ScriptFile>, i: nat): nat
    requires i <= |files|
  {
    |Plan(files[..i])|
  }

  lemma {:induction false} PlanAppend(a: seq<ScriptFile>, b: seq<ScriptFile>)
    ensures Plan(a + b) == Plan(a) + Plan(b)
    decreases |a|
  {
    if |a| == 0 {
      assert a + b == b;
    } else {
      assert (a + b)[0] == a[0] && (a + b)[1..] == a[1..] + b;
      PlanAppend(a[1..], b);
    }
  }

  /** Statement `j` of file `i` sits at `Offset(files, i) + j`, and the
      statements of file `i` all come before those of file `i + 1`. */
  lemma PlanOrder(files: seq<ScriptFile>, i: nat, j: nat)
    requires i < |files| && j < |files[i].units|
    ensures Offset(files, i) + |files[i].units| == Offset(files, i + 1)
    ensures Offset(files, i + 1) <= |Plan(files)|
    ensures Plan(files)[Offset(files, i) + j] == Step(files[i].path, files[i].units[j])
  {
    assert files[..i + 1] == files[..i] + [files[i]];
    PlanAppend(files[..i], [files[i]]);
    assert Plan([files[i]]) == FileSteps(files[i]) by {
      assert [files[i]][1..] == [];
    }
    assert files == files[..i + 1] + files[i + 1..];
    PlanAppend(files[..i + 1], files[i + 1..]);
  }

  // ------------------------------------------------------------ the execution

  /** The position of the first statement from `base` on whose `execute`
      raises, if any. */
  function FirstFailure(plan: seq<Step>, failures: map<nat, Exc>, base: nat): (r: Option<nat>)
    ensures r.None? <==> forall k | base <= k < base + |plan| :: k !in failures
    ensures r.Some? ==>
      && base <= r.value < base + |plan|
      && r.value in failures
      && forall k | base <= k < r.value :: k !in failures
    decreases |plan|
  {
    if |plan| == 0 then None
    else if base in failures then Some(base)
    else FirstFailure(plan[1..], failures, base + 1)
  }

  /** The `Executed` events of running `steps`. */
  function Ran(steps: seq<Step>): (es: seq<Event>)
    ensures |es| == |steps|
    ensures forall i | 0 <= i < |steps| :: es[i] == Executed(steps[i])
  {
    seq(|steps|, i requires 0 <= i < |steps| => Executed(steps[i]))
  }

  lemma {:induction false} RanProjections(steps: seq<Step>)
    ensures Executions(Ran(steps)) == steps
    ensures Commits(Ran(steps)) == 0 && Copies(Ran(steps)) == [] && Prints(Ran(steps)) == []
    decreases |steps|
  {
    if |steps| > 0 {
      assert Ran(steps)[1..] == Ran(steps[1..]);
      RanProjections(steps[1..]);
    }
  }

  /** Events that are all `log` calls project to nothing. */
  lemma {:induction false} LogsProjectToNothing(es: seq<Event>)
    requires forall i | 0 <= i < |es| :: es[i].Logged?
    ensures Executions(es) == [] && Commits(es) == 0 && Copies(es) == [] && Prints(es) == []
    decreases |es|
  {
    if |es| > 0 {
      LogsProjectToNothing(es[1..]);
    }
  }

  // ------------------------------------------------------------ the log calls

  const SkippedCall: LogCall := SimpleCall(1, "Initializing skipped!", None, None, None, None, None)
  const InitializedCall: LogCall := SimpleCall(3, "Database initialized!", None, None, None, None, None)
  const AllGoodCall: LogCall := SimpleCall(3, "All is good !", None, None, None, None, None)

  /** Line 243: the admin-connection block failed. */
  function SetupErrorCall(err: Exc): LogCall {
    SimpleCall(8, "Error initializing the database:", None, Some(err), Some(true), Some(true), Some(true))
  }

  /** `sql_file_object.file_path`: the script's path below the root. */
  function PathText(root: string, p: ScriptPath): string {
    Text.Join("/", [root] + p.dirs + [p.name])
  }

  /** Lines 223-231: the report of a failing statement, six lines each ended
      by a newline. */
  function InitErrorMessage(root: string, step: Step, err: Exc): (m: string)
    ensures |m| > |InitErrorHeader| && m[..|InitErrorHeader|] == InitErrorHeader
    ensures m[|m| - 1] == '\n'
    // the f-string of lines 224-231, piece by piece, whatever the fields hold
    ensures m == "[SQL INIT ERROR]" + "\n" + ("File: " + PathText(root, step.path)) + "\n"
                 + ("Object: " + step.unit.name) + "\n" + "SQL Code:" + "\n"
                 + Text.Strip(step.unit.code) + "\n" + ExcText(err) + "\n"
  {
    var lines := InitErrorLines(root, step, err);
    Text.JoinStep("\n", lines);
    Text.JoinLast("\n", lines);
    InitErrorText(root, step, err);
    Text.Join("\n", lines)
  }

  /** The report's lines, each ended by a newline, are the report's text. */
  lemma InitErrorText(root: string, step: Step, err: Exc)
    ensures Text.Join("\n", InitErrorLines(root, step, err))
         == "[SQL INIT ERROR]" + "\n" + ("File: " + PathText(root, step.path)) + "\n"
            + ("Object: " + step.unit.name) + "\n" + "SQL Code:" + "\n"
            + Text.Strip(step.unit.code) + "\n" + ExcText(err) + "\n"
  {
    var lines := InitErrorLines(root, step, err);
    var body := lines[..6];
    assert lines == body + [""];
    Text.JoinTerminated("\n", body);
    assert body == ["[SQL INIT ERROR]", "File: " + PathText(root, step.path), "Object: " + step.unit.name,
                    "SQL Code:", Text.Strip(step.unit.code), ExcText(err)];
    Text.TerminatedSix("\n", "[SQL INIT ERROR]", "File: " + PathText(root, step.path), "Object: " + step.unit.name,
                       "SQL Code:", Text.Strip(step.unit.code), ExcText(err));
  }

  const InitErrorHeader: string := "[SQL INIT ERROR]\n"

  /** The lines of the report, with the empty piece after the final newline. */
  function InitErrorLines(root: string, step: Step, err: Exc): (lines: seq<string>)
    ensures |lines| == 7 && lines[0] == "[SQL INIT ERROR]" && lines[6] == ""
  {
    ["[SQL INIT ERROR]", "File: " + PathText(root, step.path), "Object: " + step.unit.name,
     "SQL Code:", Text.Strip(step.unit.code), ExcText(err), ""]
  }

  /** When the path, the object name, the stripped code and the error text are
      each one line, the report splits into exactly its six lines and the
      empty piece after the final newline. */
  lemma InitErrorMessageLines(root: string, step: Step, err: Exc)
    requires '\n' !in PathText(root, step.path) && '\n' !in step.unit.name
    requires '\n' !in Text.Strip(step.unit.code) && '\n' !in ExcText(err)
    ensures Text.Split(InitErrorMessage(root, step, err), '\n') == InitErrorLines(root, step, err)
  {
    var lines := InitErrorLines(root, step, err);
    forall i | 0 <= i < |lines|
      ensures '\n' !in lines[i]
    {
      if i == 1 {
        assert lines[1] == "File: " + PathText(root, step.path);
      } else if i == 2 {
        assert lines[2] == "Object: " + step.unit.name;
      }
    }
    Text.SplitJoin(lines, '\n');
  }

  /** Line 233: the log call for a failing statement, console on, backtrace off. */
  function InitErrorCall(root: string, step: Step, err: Exc): LogCall {
    SimpleCall(8, InitErrorMessage(root, step, err), None, Some(err), Some(true), Some(false), Some(true))
  }

  // -------------------------------------------------------- the execute phase

  /** The first of `steps` that raised, if any. */
  function FirstRaised(steps: seq<Option<Exc>>): Option<Exc>
    decreases |steps|
  {
    if |steps| == 0 then None
    else if steps[0].Some? then steps[0]
    else FirstRaised(steps[1..])
  }

  /** The exception of lines 238-240 that reaches the handler at line 241:
      the first of the commit and the two closes to raise. */
  function FinalFailure(env: Environment): Option<Exc> {
    FirstRaised([env.commit, env.cursorClose, env.connectionClose])
  }

  /** Lines 238-246: commit, close the cursor, close the connection; the
      first of them that raises is reported and the rest are skipped; then
      "Database initialized!" is logged. */
  function Finalise(env: Environment): (es: seq<Event>)
    ensures |es| >= 3 && es[0] == Committed && es[|es| - 1] == Logged(InitializedCall)
    ensures Commits(es) == 1 && Executions(es) == [] && Copies(es) == [] && Prints(es) == []
    // each close is reached only when every step before it succeeded
    ensures CursorClosed in es <==> env.commit.None?
    ensures ConnectionClosed in es <==> env.commit.None? && env.cursorClose.None?
    // the first failure is reported just before "Database initialized!"
    ensures FinalFailure(env).Some? ==> es[|es| - 2] == Logged(SetupErrorCall(FinalFailure(env).value))
    ensures FinalFailure(env).None? ==> es == [Committed, CursorClosed, ConnectionClosed, Logged(InitializedCall)]
  {
    FinalFailureCases(env);
    var es :=
      if env.commit.Some? then
        [Committed, Logged(SetupErrorCall(env.commit.value)), Logged(InitializedCall)]
      else if env.cursorClose.Some? then
        [Committed, CursorClosed, Logged(SetupErrorCall(env.cursorClose.value)), Logged(InitializedCall)]
      else if env.connectionClose.Some? then
        [Committed, CursorClosed, ConnectionClosed, Logged(SetupErrorCall(env.connectionClose.value)),
         Logged(InitializedCall)]
      else [Committed, CursorClosed, ConnectionClosed, Logged(InitializedCall)];
    assert es == [Committed] + es[1..];
    CommitThenTail(es[1..]);
    es
  }

  /** The first failing closing step, case by case. */
  lemma FinalFailureCases(env: Environment)
    ensures FinalFailure(env) ==
      if env.commit.Some? then env.commit
      else if env.cursorClose.Some? then env.cursorClose
      else env.connectionClose
  {
    var steps := [env.commit, env.cursorClose, env.connectionClose];
    assert steps[1..][1..] == [env.connectionClose] && steps[1..][1..][1..] == [];
    assert FirstRaised(steps[1..][1..]) == env.connectionClose;
    assert FirstRaised(steps[1..]) == if env.cursorClose.Some? then env.cursorClose else env.connectionClose;
  }

  /** A commit followed by closes and logs executes nothing and commits once. */
  lemma CommitThenTail(tail: seq<Event>)
    requires forall i | 0 <= i < |tail| :: tail[i].Logged? || tail[i].CursorClosed? || tail[i].ConnectionClosed?
    ensures Commits([Committed] + tail) == 1 && Executions([Committed] + tail) == []
    ensures Copies([Committed] + tail) == [] && Prints([Committed] + tail) == []
  {
    ProjectionsAppend([Committed], tail);
    assert [Committed][1..] == [];
    TailProjections(tail);
  }


  /** The events after a commit project to nothing. */
  lemma {:induction false} TailProjections(es: seq<Event>)
    requires forall i | 0 <= i < |es| :: es[i].Logged? || es[i].CursorClosed? || es[i].ConnectionClosed?
    ensures Executions(es) == [] && Commits(es) == 0 && Copies(es) == [] && Prints(es) == []
    decreases |es|
  {
    if |es| > 0 {
      TailProjections(es[1..]);
    }
  }

  /** The statements, then events that start with the commit and execute
      nothing: the commit follows every statement. */
  lemma RanThenCommit(plan: seq<Step>, tail: seq<Event>)
    requires |tail| > 0 && tail[0] == Committed
    requires Executions(tail) == [] && Commits(tail) == 1 && Copies(tail) == [] && Prints(tail) == []
    ensures var es := Ran(plan) + tail;
      && Executions(es) == plan && Commits(es) == 1 && Copies(es) == [] && Prints(es) == []
      && |es| > |plan| && es[|plan|] == Committed
      && es[..|plan|] == Ran(plan) && es[|plan|..] == tail
  {
    var es := Ran(plan) + tail;
    RanProjections(plan);
    ProjectionsAppend(Ran(plan), tail);
    assert es[..|plan|] == Ran(plan);
    assert es[|plan|..] == tail;
  }

  /** The events of a run halted by the statement at `k`: it and every
      statement before it ran, then its report was logged. */
  function HaltEvents(root: string, plan: seq<Step>, k: nat, err: Exc): (es: seq<Event>)
    requires k < |plan|
    ensures Executions(es) == plan[..k + 1]
    ensures Commits(es) == 0 && Copies(es) == [] && Prints(es) == []
    ensures |es| > 0 && es[|es| - 1] == Logged(InitErrorCall(root, plan[k], err))
    ensures |es| == k + 2 && es[..k + 1] == Ran(plan[..k + 1])
    ensures CursorClosed !in es && ConnectionClosed !in es
  {
    var ran := Ran(plan[..k + 1]);
    var call := InitErrorCall(root, plan[k], err);
    RanThenLog(plan[..k + 1], call);
    assert (ran + [Logged(call)])[..k + 1] == ran;
    ran + [Logged(call)]
  }

  /** Running `steps` and then logging once projects to the steps alone. */
  lemma RanThenLog(steps: seq<Step>, call: LogCall)
    ensures var es := Ran(steps) + [Logged(call)];
      Executions(es) == steps && Commits(es) == 0 && Copies(es) == [] && Prints(es) == []
  {
    RanProjections(steps);
    LogsProjectToNothing([Logged(call)]);
    ProjectionsAppend(Ran(steps), [Logged(call)]);
  }

  /** The events of a run in which every statement succeeded. */
  function CompleteEvents(plan: seq<Step>, env: Environment): (es: seq<Event>)
    ensures Executions(es) == plan
    ensures Commits(es) == 1 && Copies(es) == [] && Prints(es) == []
    ensures |es| > |plan| && es[|plan|] == Committed
    // every statement runs before the commit, and none after it
    ensures es[..|plan|] == Ran(plan) && Executions(es[|plan|..]) == []
    ensures es[|es| - 1] == Logged(InitializedCall)
    // the closes, and the report of the first closing step that raised
    ensures ClosingAfter(es, plan, env)
  {
    RanThenCommit(plan, Finalise(env));
    RanThenFinalise(plan, env);
    Ran(plan) + Finalise(env)
  }

  /** After the statements of `plan`: each close is reached only when the
      steps before it succeeded; the first closing step to raise is reported
      just before "Database initialized!"; with none raising, the commit and
      both closes come in order. */
  predicate ClosingAfter(events: seq<Event>, plan: seq<Step>, env: Environment) {
    && |events| >= 2
    && (CursorClosed in events <==> env.commit.None?)
    && (ConnectionClosed in events <==> env.commit.None? && env.cursorClose.None?)
    && (FinalFailure(env).Some? ==> events[|events| - 2] == Logged(SetupErrorCall(FinalFailure(env).value)))
    && (FinalFailure(env).None? ==>
          |events| >= |plan| && events[|plan|..] == [Committed, CursorClosed, ConnectionClosed, Logged(InitializedCall)])
  }

  /** The end of the statements followed by the closing steps is the closing steps' end. */
  lemma RanThenFinalise(plan: seq<Step>, env: Environment)
    ensures var es := Ran(plan) + Finalise(env);
      && |es| >= 2
      && es[|es| - 1] == Logged(InitializedCall)
      && (CursorClosed in es <==> env.commit.None?)
      && (ConnectionClosed in es <==> env.commit.None? && env.cursorClose.None?)
      && (FinalFailure(env).Some? ==> es[|es| - 2] == Logged(SetupErrorCall(FinalFailure(env).value)))
  {
    var tail := Finalise(env);
    var es := Ran(plan) + tail;
    assert es[|es| - 2] == tail[|tail| - 2] && es[|es| - 1] == tail[|tail| - 1];
    assert CursorClosed !in Ran(plan) && ConnectionClosed !in Ran(plan);
  }

  /** The events when the admin connection could not be opened. */
  function SetupFailedEvents(err: Exc): (es: seq<Event>)
    ensures Executions(es) == [] && Commits(es) == 0 && Copies(es) == [] && Prints(es) == []
    ensures es == [Logged(SetupErrorCall(err)), Logged(InitializedCall)]
  {
    var es := [Logged(SetupErrorCall(err)), Logged(InitializedCall)];
    LogsProjectToNothing(es);
    es
  }

  /** What the execute phase did, and whether it ended in `quit(0)`. */
  datatype Phase = Phase(events: seq<Event>, halted: bool)

  /** Lines 211-246. */
  function Initialise(root: string, plan: seq<Step>, env: Environment): (p: Phase)
    ensures Copies(p.events) == [] && Prints(p.events) == []
    ensures p.halted <==> env.admin.None? && FirstFailure(plan, env.failures, 0).Some?
    // the admin connection failed: nothing runs, and initialisation is announced anyway
    ensures env.admin.Some? ==>
      p.events == [Logged(SetupErrorCall(env.admin.value)), Logged(InitializedCall)]
    // a statement failed: it and everything before it ran, nothing after, no commit
    ensures p.halted ==>
      var k := FirstFailure(plan, env.failures, 0).value;
      && Executions(p.events) == plan[..k + 1]
      && |p.events| == k + 2 && p.events[..k + 1] == Ran(plan[..k + 1])
      && Commits(p.events) == 0
      && p.events[|p.events| - 1] == Logged(InitErrorCall(root, plan[k], env.failures[k]))
    // every statement ran: exactly one commit, after the last of them
    ensures env.admin.None? && !p.halted ==>
      && Executions(p.events) == plan
      && Commits(p.events) == 1
      && |p.events| > |plan| && p.events[|plan|] == Committed
      && p.events[..|plan|] == Ran(plan) && Executions(p.events[|plan|..]) == []
      && p.events[|p.events| - 1] == Logged(InitializedCall)
    ensures env.admin.Some? ==> Executions(p.events) == [] && Commits(p.events) == 0
    ensures Commits(p.events) <= 1
    // neither close is reached after a failing statement or commit
    ensures p.halted || (env.admin.None? && env.commit.Some?) ==>
      CursorClosed !in p.events && ConnectionClosed !in p.events
    // after the last statement: both closes on the clean path, and the first
    // failing closing step reported just before "Database initialized!"
    ensures env.admin.None? && !p.halted ==> ClosingAfter(p.events, plan, env)
  {
    if env.admin.Some? then Phase(SetupFailedEvents(env.admin.value), false)
    else
      var first := FirstFailure(plan, env.failures, 0);
      if first.Some? then Phase(HaltEvents(root, plan, first.value, env.failures[first.value]), true)
      else Phase(CompleteEvents(plan, env), false)
  }

  // -------------------------------------------------------------------- start

  /** The probe failed because the configured database does not exist. */
  predicate IsBadDatabase(e: Exc) {
    e.MySqlError? && e.errno == ER_BAD_DB_ERROR
  }

  /** The scripts discovered after provisioning, when both discoveries succeed. */
  function Discovered(env: Environment): Option<seq<ScriptFile>>
    requires Enumerates(env.copyOrder, MissingNames(env.bundled, InitScripts(env.tree)))
  {
    if Discover(env.tree).Failure? then None
    else Rediscovered(CopyAll(env.tree, env.bundled, env.copyOrder))
  }

  /** Lines 201-246 and 277, after `prior` (the provisioning events): the
      probe and what follows it. */
  function AfterProbe(env: Environment, prior: seq<Event>, plan: seq<Step>): (r: StartRun)
    requires Executions(prior) == [] && Commits(prior) == 0
    ensures r.outcome.Completed? ==> |r.events| > 0 && r.events[|r.events| - 1] == Logged(AllGoodCall)
    ensures r.outcome.Halted? ==> env.probe.Some? && IsBadDatabase(env.probe.value) && env.admin.None?
    ensures r.outcome.Failed? <==> env.probe.Some? && !env.probe.value.MySqlError?
    ensures r.outcome.Failed? ==> r.outcome.error == env.probe.value
    ensures Commits(r.events) <= 1
    ensures |Executions(r.events)| > 0 ==> env.probe.Some? && IsBadDatabase(env.probe.value)
    ensures Copies(r.events) == Copies(prior)
  {
    match env.probe
    case None =>
      LogsProjectToNothing([Logged(SkippedCall)]);
      Finish(prior, [Logged(SkippedCall)])
    case Some(e) =>
      if IsBadDatabase(e) then CreateDatabase(env, prior, plan)
      else if e.MySqlError? then
        LogsProjectToNothing([]);
        Finish(prior, [])
      else StartRun(prior, Failed(e))
  }

  /** The probe found no database: the execute phase, then (unless it
      halted) the closing log. */
  function CreateDatabase(env: Environment, prior: seq<Event>, plan: seq<Step>): (r: StartRun)
    requires Executions(prior) == [] && Commits(prior) == 0
    ensures |r.events| >= |prior| && r.events[..|prior|] == prior
    ensures r.outcome.Completed? || r.outcome.Halted?
    ensures r.outcome.Completed? ==> |r.events| > 0 && r.events[|r.events| - 1] == Logged(AllGoodCall)
    ensures r.outcome.Halted? <==> env.admin.None? && FirstFailure(plan, env.failures, 0).Some?
    ensures Commits(r.events) <= 1
    ensures Copies(r.events) == Copies(prior)
  {
    var phase := Initialise(env.root, plan, env);
    if phase.halted then Halt(prior, phase.events)
    else Finish(prior, phase.events)
  }

  /** `prior`, then the execute phase that ended in `quit(0)`. */
  function Halt(prior: seq<Event>, phase: seq<Event>): (r: StartRun)
    ensures r.outcome == Halted
    ensures |r.events| >= |prior| && r.events[..|prior|] == prior
    ensures Executions(r.events) == Executions(prior) + Executions(phase)
    ensures Commits(r.events) == Commits(prior) + Commits(phase)
    ensures Copies(r.events) == Copies(prior) + Copies(phase)
    ensures |r.events| == |prior| + |phase|
    ensures |phase| > 0 ==> r.events[|r.events| - 1] == phase[|phase| - 1]
  {
    ProjectionsAppend(prior, phase);
    assert (prior + phase)[..|prior|] == prior;
    StartRun(prior + phase, Halted)
  }

  /** `prior`, then `middle`, then the closing "All is good !" log. */
  function Finish(prior: seq<Event>, middle: seq<Event>): (r: StartRun)
    ensures r.outcome == Completed
    ensures |r.events| > |prior| && r.events[..|prior|] == prior
    ensures r.events[|r.events| - 1] == Logged(AllGoodCall)
    ensures |r.events| == |prior| + |middle| + 1 && r.events[|prior|..|prior| + |middle|] == middle
    ensures Executions(r.events) == Executions(prior) + Executions(middle)
    ensures Commits(r.events) == Commits(prior) + Commits(middle)
    ensures Copies(r.events) == Copies(prior) + Copies(middle)
  {
    var tail := [Logged(AllGoodCall)];
    LogsProjectToNothing(tail);
    ProjectionsAppend(prior, middle);
    ProjectionsAppend(prior + middle, tail);
    assert (prior + middle + tail)[..|prior|] == prior;
    assert (prior + middle + tail)[|prior|..|prior| + |middle|] == middle;
    StartRun(prior + middle + tail, Completed)
  }

  /** Lines 172-277, with the bridge emission of lines 248-275 left out. */
  function Start(env: Environment): (r: StartRun)
    requires Enumerates(env.copyOrder, MissingNames(env.bundled, InitScripts(env.tree)))
    // discovery raising ends the run with the `ValueError`
    ensures Discovered(env).None? ==> r.outcome.Failed? && r.outcome.error.ValueError?
    // a normal end is always announced last
    ensures r.outcome.Completed? ==> |r.events| > 0 && r.events[|r.events| - 1] == Logged(AllGoodCall)
    // only a missing database leads to `quit(0)`
    ensures r.outcome.Halted? ==> env.probe.Some? && IsBadDatabase(env.probe.value) && env.admin.None?
    // the probe's other errors: mysql ones are ignored, others propagate
    ensures Discovered(env).Some? ==>
      (r.outcome.Failed? <==> env.probe.Some? && !env.probe.value.MySqlError?)
    ensures Discovered(env).Some? && r.outcome.Failed? ==> r.outcome.error == env.probe.value
    // at most one commit, and statements run only when the database was missing
    ensures Commits(r.events) <= 1
    ensures |Executions(r.events)| > 0 ==> env.probe.Some? && IsBadDatabase(env.probe.value)
  {
    if Discover(env.tree).Failure? then StartRun([], Failed(Discover(env.tree).error))
    else
      var prov := Provide(env.root, env.tree, env.bundled, env.copyOrder);
      assert Discovered(env) == Rediscovered(prov.tree);
      AfterProvision(env, prov)
  }

  /** The second discovery's scripts, when it succeeds. */
  function Rediscovered(tree: seq<ScriptFile>): Option<seq<ScriptFile>>
  {
    var after := Discover(tree);
    if after.Failure? then None else Some(after.value)
  }

  /** Lines 198-246 and 277, once provisioning has produced `prov`: the second
      discovery, then the probe. */
  function AfterProvision(env: Environment, prov: Provisioned): (r: StartRun)
    requires Executions(prov.events) == [] && Commits(prov.events) == 0
    ensures Rediscovered(prov.tree).None? ==> r.outcome.Failed? && r.outcome.error.ValueError?
    ensures r.outcome.Completed? ==> |r.events| > 0 && r.events[|r.events| - 1] == Logged(AllGoodCall)
    ensures r.outcome.Halted? ==> env.probe.Some? && IsBadDatabase(env.probe.value) && env.admin.None?
    ensures Rediscovered(prov.tree).Some? ==>
      (r.outcome.Failed? <==> env.probe.Some? && !env.probe.value.MySqlError?)
    ensures Rediscovered(prov.tree).Some? && r.outcome.Failed? ==> r.outcome.error == env.probe.value
    ensures Commits(r.events) <= 1
    ensures |Executions(r.events)| > 0 ==> env.probe.Some? && IsBadDatabase(env.probe.value)
    // whatever follows, the copies are those of provisioning
    ensures Copies(r.events) == Copies(prov.events)
  {
    var after := Discover(prov.tree);
    if after.Failure? then StartRun(prov.events, Failed(after.error))
    else AfterProbe(env, prov.events, Plan(after.value))
  }

  // --------------------------------------------------------------- properties

  /** The provisioning events of a run whose discoveries succeed. */
  function Provisioning(env: Environment): seq<Event>
    requires Enumerates(env.copyOrder, MissingNames(env.bundled, InitScripts(env.tree)))
  {
    Provide(env.root, env.tree, env.bundled, env.copyOrder).events
  }

  /** The run plan of a run whose discoveries succeed. */
  function PlanOf(env: Environment): seq<Step>
    requires Enumerates(env.copyOrder, MissingNames(env.bundled, InitScripts(env.tree)))
    requires Discovered(env).Some?
  {
    Plan(Discovered(env).value)
  }

  /** Past discovery, `start` is provisioning followed by the probe. */
  lemma StartAfterDiscovery(env: Environment)
    requires Enumerates(env.copyOrder, MissingNames(env.bundled, InitScripts(env.tree)))
    requires Discovered(env).Some?
    ensures Start(env) == AfterProbe(env, Provisioning(env), PlanOf(env))
  {
  }

  /** The database exists: initialisation is skipped, no statement runs, and
      the run ends with the "skipped" and "All is good !" logs. */
  lemma ExistingDatabaseSkips(env: Environment)
    requires Enumerates(env.copyOrder, MissingNames(env.bundled, InitScripts(env.tree)))
    requires Discovered(env).Some? && env.probe.None?
    ensures var r := Start(env);
      && r.outcome == Completed
      && r.events == Provisioning(env) + [Logged(SkippedCall)] + [Logged(AllGoodCall)]
      && Executions(r.events) == [] && Commits(r.events) == 0
  {
    StartAfterDiscovery(env);
    SkippedAfterProbe(env, Provisioning(env), PlanOf(env));
  }

  /** No probe error: the skip and the closing log follow `prior`. */
  lemma SkippedAfterProbe(env: Environment, prior: seq<Event>, plan: seq<Step>)
    requires Executions(prior) == [] && Commits(prior) == 0
    requires env.probe.None?
    ensures var r := AfterProbe(env, prior, plan);
      && r.outcome == Completed
      && r.events == prior + [Logged(SkippedCall)] + [Logged(AllGoodCall)]
      && Executions(r.events) == [] && Commits(r.events) == 0
  {
    LogsProjectToNothing([Logged(SkippedCall)]);
  }

  /** Any other mysql error of the probe is ignored: nothing runs, nothing is
      reported, and the run ends normally. */
  lemma OtherProbeErrorIgnored(env: Environment)
    requires Enumerates(env.copyOrder, MissingNames(env.bundled, InitScripts(env.tree)))
    requires Discovered(env).Some? && env.probe.Some?
    requires env.probe.value.MySqlError? && env.probe.value.errno != ER_BAD_DB_ERROR
    ensures var r := Start(env);
      && r.outcome == Completed
      && r.events == Provisioning(env) + [] + [Logged(AllGoodCall)]
      && Executions(r.events) == [] && Commits(r.events) == 0
  {
    StartAfterDiscovery(env);
    LogsProjectToNothing([]);
  }

  /** The database is missing and every statement succeeds: after
      provisioning, all statements run in plan order, then comes the one
      commit, and no statement runs after it. */
  lemma MissingDatabaseRunsEverything(env: Environment)
    requires Enumerates(env.copyOrder, MissingNames(env.bundled, InitScripts(env.tree)))
    requires Discovered(env).Some? && env.probe.Some? && IsBadDatabase(env.probe.value)
    requires env.admin.None?
    requires forall k | 0 <= k < |PlanOf(env)| :: k !in env.failures
    ensures var r := Start(env);
      var n := |Provisioning(env)|;
      var plan := PlanOf(env);
      && r.outcome == Completed
      && Executions(r.events) == plan
      && Commits(r.events) == 1
      && r.events[..n] == Provisioning(env)
      && CommitFollowsPlan(r.events, n, plan)
  {
    var prior := Provisioning(env);
    var plan := PlanOf(env);
    StartAfterDiscovery(env);
    CompletedAfterProbe(env, prior, plan);
    FinishKeepsOrder(prior, plan, CompleteEvents(plan, env));
  }

  /** From position `n` of `events`: every statement of `plan` runs in
      order, the commit follows, and no statement runs after it. */
  predicate CommitFollowsPlan(events: seq<Event>, n: nat, plan: seq<Step>)
  {
    && |events| > n + |plan|
    && events[n..n + |plan|] == Ran(plan)
    && events[n + |plan|] == Committed
    && Executions(events[n + |plan|..]) == []
  }

  /** A completed execute phase, seen from the probe onwards. */
  lemma CompletedAfterProbe(env: Environment, prior: seq<Event>, plan: seq<Step>)
    requires Executions(prior) == [] && Commits(prior) == 0
    requires env.probe.Some? && IsBadDatabase(env.probe.value) && env.admin.None?
    requires forall k | 0 <= k < |plan| :: k !in env.failures
    ensures AfterProbe(env, prior, plan) == Finish(prior, CompleteEvents(plan, env))
  {
    ProbeFindsNoDatabase(env, prior, plan);
    CompletedRun(env, prior, plan);
  }

  /** Finishing keeps the completed phase's order: the statements, then
      the commit, then nothing that executes. */
  lemma FinishKeepsOrder(prior: seq<Event>, plan: seq<Step>, middle: seq<Event>)
    requires Executions(prior) == [] && Commits(prior) == 0
    requires Executions(middle) == plan && Commits(middle) == 1
    requires CommitFollowsPlan(middle, 0, plan)
    ensures var r := Finish(prior, middle);
      var n := |prior|;
      && r.outcome == Completed
      && Executions(r.events) == plan
      && Commits(r.events) == 1
      && r.events[..n] == prior
      && CommitFollowsPlan(r.events, n, plan)
  {
    var tail := [Logged(AllGoodCall)];
    assert Finish(prior, middle).events == prior + middle + tail;
    LogsProjectToNothing(tail);
    ShiftCommitFollowsPlan(prior, middle, tail, plan);
  }

  /** Events before and after a completed phase leave its order in place. */
  lemma ShiftCommitFollowsPlan(prior: seq<Event>, middle: seq<Event>, tail: seq<Event>, plan: seq<Step>)
    requires CommitFollowsPlan(middle, 0, plan)
    requires Executions(tail) == []
    ensures CommitFollowsPlan(prior + middle + tail, |prior|, plan)
  {
    var es := prior + middle + tail;
    var n := |prior|;
    var m := |plan|;
    assert es[n..n + m] == middle[0..m];
    assert es[n + m] == middle[m];
    assert es[n + m..] == middle[m..] + tail;
    ProjectionsAppend(middle[m..], tail);
  }


  /** An execute phase in which every statement succeeds: the run is `prior`,
      the completed phase and the closing log. */
  lemma CompletedRun(env: Environment, prior: seq<Event>, plan: seq<Step>)
    requires Executions(prior) == [] && Commits(prior) == 0
    requires env.admin.None? && forall k | 0 <= k < |plan| :: k !in env.failures
    ensures CreateDatabase(env, prior, plan) == Finish(prior, CompleteEvents(plan, env))
  {
    assert Initialise(env.root, plan, env) == Phase(CompleteEvents(plan, env), false);
  }

  /** The first failure is the failing position with no failure before it. */
  lemma FirstFailureIs(plan: seq<Step>, failures: map<nat, Exc>, k: nat)
    requires k < |plan| && k in failures
    requires forall j | 0 <= j < k :: j !in failures
    ensures FirstFailure(plan, failures, 0) == Some(k)
  {
  }

  /** A halted execute phase, seen from the probe onwards. */
  lemma HaltedAfterProbe(env: Environment, prior: seq<Event>, plan: seq<Step>, k: nat)
    requires Executions(prior) == [] && Commits(prior) == 0
    requires env.probe.Some? && IsBadDatabase(env.probe.value) && env.admin.None?
    requires FirstFailure(plan, env.failures, 0) == Some(k)
    ensures var r := AfterProbe(env, prior, plan);
      && r.outcome == Halted
      && Executions(r.events) == plan[..k + 1]
      && Commits(r.events) == 0
      && r.events[|r.events| - 1] == Logged(InitErrorCall(env.root, plan[k], env.failures[k]))
  {
    ProbeFindsNoDatabase(env, prior, plan);
    HaltedRun(env, prior, plan, k);
  }

  /** A missing database leads straight to the execute phase. */
  lemma ProbeFindsNoDatabase(env: Environment, prior: seq<Event>, plan: seq<Step>)
    requires Executions(prior) == [] && Commits(prior) == 0
    requires env.probe.Some? && IsBadDatabase(env.probe.value)
    ensures AfterProbe(env, prior, plan) == CreateDatabase(env, prior, plan)
  {
  }

  /** A halted execute phase: the run is `prior` followed by the halt's events. */
  lemma HaltedRun(env: Environment, prior: seq<Event>, plan: seq<Step>, k: nat)
    requires Executions(prior) == [] && Commits(prior) == 0
    requires env.admin.None? && FirstFailure(plan, env.failures, 0) == Some(k)
    ensures k < |plan| && k in env.failures
    ensures CreateDatabase(env, prior, plan) == Halt(prior, HaltEvents(env.root, plan, k, env.failures[k]))
  {
    assert Initialise(env.root, plan, env) == Phase(HaltEvents(env.root, plan, k, env.failures[k]), true);
  }

  /** The first failing statement halts the run: it and the statements before
      it ran, none after, no commit, and its report is the last thing logged. */
  lemma FirstFailureHalts(env: Environment, k: nat)
    requires Enumerates(env.copyOrder, MissingNames(env.bundled, InitScripts(env.tree)))
    requires Discovered(env).Some? && env.probe.Some? && IsBadDatabase(env.probe.value)
    requires env.admin.None?
    requires k < |PlanOf(env)| && k in env.failures
    requires forall j | 0 <= j < k :: j !in env.failures
    ensures var r := Start(env);
      && r.outcome == Halted
      && Executions(r.events) == PlanOf(env)[..k + 1]
      && Commits(r.events) == 0
      && r.events[|r.events| - 1] == Logged(InitErrorCall(env.root, PlanOf(env)[k], env.failures[k]))
  {
    StartAfterDiscovery(env);
    FirstFailureIs(PlanOf(env), env.failures, k);
    HaltedAfterProbe(env, Provisioning(env), PlanOf(env), k);
  }

  /** The admin connection fails: the failure is logged, no statement runs, and
      "Database initialized!" and "All is good !" are logged all the same. */
  lemma AdminFailureStillAnnounced(env: Environment)
    requires Enumerates(env.copyOrder, MissingNames(env.bundled, InitScripts(env.tree)))
    requires Discovered(env).Some? && env.probe.Some? && IsBadDatabase(env.probe.value)
    requires env.admin.Some?
    ensures var r := Start(env);
      && r.outcome == Completed
      && r.events == Provisioning(env)
                     + [Logged(SetupErrorCall(env.admin.value)), Logged(InitializedCall)]
                     + [Logged(AllGoodCall)]
      && Executions(r.events) == []
  {
    StartAfterDiscovery(env);
  }

  /** Provisioning happens whenever the first discovery succeeds: the missing
      files are copied in the chosen order, and nothing later copies a file. */
  lemma StartCopiesMissing(env: Environment)
    requires Enumerates(env.copyOrder, MissingNames(env.bundled, InitScripts(env.tree)))
    requires Discover(env.tree).Success?
    ensures Copies(Start(env).events) == env.copyOrder
  {
    var prov := Provide(env.root, env.tree, env.bundled, env.copyOrder);
    assert Start(env) == AfterProvision(env, prov);
  }
}

=== FILE: connection.dfy ===
/** The connection factory `__db_connect` (`wavesql/database.py:279-330`): it
    opens a connection and a cursor against the configured server, optionally
    against another database, and remembers in a one-way flag whether any
    connection ever succeeded. That flag decides how a later failure is
    reported: through the log sink once the database is known to work, as a
    raw console line before. */
module Connection {
  import opened Wrappers
  import opened Records

  /** The factory's only state: `__db_init_succsess`, false at construction. */
  datatype Factory = Factory(everConnected: bool)

  /** The connection/cursor pair handed back: the configuration it was opened
      with and whether its cursor yields rows as dictionaries. */
  datatype Handle = Handle(target: Config, dictionary: bool)

  /** What a failed connect says before it re-raises. */
  datatype Report =
    | Quiet                     // nothing: no database was named
    | Reported(call: LogCall)   // `self.log(level=8, module="DATABASE", ...)`
    | Echoed(line: ConsoleLine) // the raw `print(LOG_COLORS["LIGHTRED"] + ...)`

  /** One call of the factory: the new state, the handle or the exception
      re-raised, and the report made on the way. */
  datatype Attempt = Attempt(factory: Factory, outcome: Result<Handle, Exc>, report: Report)

  /** The keyword arguments of `connect`: the session's configuration, or a
      deep copy of it with `database` replaced. The session's own
      configuration is a value here, so it cannot be changed by the call. */
  function Target(config: Config, database: Option<string>): (c: Config)
    ensures c.host == config.host && c.user == config.user && c.password == config.password
    ensures c.database == (if database.Some? then database.value else config.database)
  {
    match database
    case None => config
    case Some(name) => config.(database := name)
  }

  /** The log call made for a failed connect once a connection has worked. */
  function ConnectFailureCall(database: string, err: Exc): LogCall {
    SimpleCall(8, "DB_CONNECT: " + database, Some("DATABASE"), Some(err), Some(true), None, None)
  }

  /** The raw console line printed for a failed connect before any connection worked. */
  function ConnectFailureLine(database: string): ConsoleLine {
    ConsoleLine(Named("LIGHTRED"), Now, "ERROR", "DATABASE", "DB_CONNECT: " + database, None)
  }

  /** `__db_connect(database, is_dictionary)`, where `reply` is what
      `connect(...)` followed by `connection.cursor(...)` did: `None` when both
      succeeded, the exception otherwise. */
  function Connect(settings: Settings, f: Factory, database: Option<string>, dictionary: Option<bool>,
                   reply: Option<Exc>): (r: Attempt)
    // success: the handle targets the chosen database with the chosen row shape, and the flag is set
    ensures r.outcome.Success? <==> reply.None?
    ensures r.outcome.Success? ==>
      && r.outcome.value.target == Target(settings.config, database)
      && r.outcome.value.dictionary == (if dictionary.Some? then dictionary.value else settings.isDictionary)
      && r.factory.everConnected
      && r.report == Quiet
    // failure: the same exception is re-raised and the flag keeps its value
    ensures r.outcome.Failure? ==> r.outcome.error == reply.value && r.factory == f
    // how a failure is reported
    ensures r.report.Reported? <==> reply.Some? && database.Some? && f.everConnected
    ensures r.report.Echoed? <==> reply.Some? && database.Some? && !f.everConnected
    ensures r.report.Reported? ==> r.report.call == ConnectFailureCall(database.value, reply.value)
    ensures r.report.Echoed? ==> r.report.line == ConnectFailureLine(database.value)
  {
    var shape := dictionary.GetOr(settings.isDictionary);
    match reply
    case None => Attempt(Factory(true), Success(Handle(Target(settings.config, database), shape)), Quiet)
    case Some(err) =>
      var report :=
        if database.None? then Quiet
        else if f.everConnected then Reported(ConnectFailureCall(database.value, err))
        else Echoed(ConnectFailureLine(database.value));
      Attempt(f, Failure(err), report)
  }

  /** A sequence of factory calls, each with its database, row shape and reply,
      run against one session; the state after all of them. */
  function ConnectAll(settings: Settings, f: Factory, calls: seq<(Option<string>, Option<bool>, Option<Exc>)>): Factory
    decreases |calls|
  {
    if |calls| == 0 then f
    else ConnectAll(settings, Connect(settings, f, calls[0].0, calls[0].1, calls[0].2).factory, calls[1..])
  }

  /** The flag is one-way: after any sequence of calls it is set exactly when it
      was set before or one of the calls connected. */
  lemma {:induction false} FlagRecordsAnySuccess(settings: Settings, f: Factory,
                                                 calls: seq<(Option<string>, Option<bool>, Option<Exc>)>)
    ensures ConnectAll(settings, f, calls).everConnected
        <==> f.everConnected || exists i | 0 <= i < |calls| :: calls[i].2.None?
    decreases |calls|
  {
    if |calls| > 0 {
      var next := Connect(settings, f, calls[0].0, calls[0].1, calls[0].2).factory;
      FlagRecordsAnySuccess(settings, next, calls[1..]);
      if exists i | 0 <= i < |calls[1..]| :: calls[1..][i].2.None? {
        var i :| 0 <= i < |calls[1..]| && calls[1..][i].2.None?;
        assert calls[i + 1].2.None?;
      }
      if exists i | 0 <= i < |calls| :: calls[i].2.None? {
        var i :| 0 <= i < |calls| && calls[i].2.None?;
        if i > 0 {
          assert calls[1..][i - 1].2.None?;
        }
      }
    }
  }

  /** Once a connection has worked, no failure with a named database is ever
      echoed raw again: it goes through the log sink. */
  lemma AfterSuccessFailuresAreLogged(settings: Settings, f: Factory,
                                      calls: seq<(Option<string>, Option<bool>, Option<Exc>)>,
                                      database: string, err: Exc)
    requires exists i | 0 <= i < |calls| :: calls[i].2.None?
    ensures var last := Connect(settings, ConnectAll(settings, f, calls), Some(database), None, Some(err));
      last.report == Reported(ConnectFailureCall(database, err))
  {
    FlagRecordsAnySuccess(settings, f, calls);
  }
}

=== FILE: gate.dfy ===
/** The session gate: the protection decorator `__protected`
    (`wavesql/database.py:156-170`) and the two entry points that run one
    statement, `_db_query` (`:332-392`) and `_db_call_procedure` (`:394-453`).
    Both open a connection through the factory outside their `try`, run the
    statement inside it, log and re-raise any error, and close the cursor and
    the connection in a `finally` that ends in `return result` -- which
    discards the re-raised error. */
module Gate {
  import opened Wrappers
  import opened Records
  import Connection

  // ---------------------------------------------------------------- protection

  /** The immediate caller of a protected method, as `inspect.stack()[1]` sees
      it: a frame without a `self` local, or one whose `self` is an instance of
      the listed classes (its class and all of its bases). */
  datatype Caller = NoSelf | SelfOf(classes: set<string>)

  /** The caller every method of the session itself presents. */
  function SessionCaller(settings: Settings): Caller {
    SelfOf({settings.sessionClass})
  }

  function ProtectedMessage(name: string): string {
    "Async method '" + name + "' is protected and cannot be called from outside"
  }

  /** The decorator's decision for a call of the method `name`: `None` lets the call
      through, otherwise the `PermissionError` it raises instead. */
  function Guard(settings: Settings, caller: Caller, name: string): (r: Option<Exc>)
    ensures r.None? <==> !settings.isProtected || (caller.SelfOf? && settings.sessionClass in caller.classes)
    ensures r.Some? ==> r.value == PermissionError(ProtectedMessage(name))
  {
    if settings.isProtected && !(caller.SelfOf? && settings.sessionClass in caller.classes) then
      Some(PermissionError(ProtectedMessage(name)))
    else
      None
  }

  /** Any instance of the session's class is admitted, not only the session
      that owns the method. */
  lemma AnySessionInstanceAdmitted(settings: Settings, classes: set<string>, name: string)
    requires settings.sessionClass in classes
    ensures Guard(settings, SelfOf(classes), name).None?
  {
  }

  /** A caller with no `self` is refused exactly when protection is on. */
  lemma BareCallerRefused(settings: Settings, name: string)
    ensures Guard(settings, NoSelf, name).Some? <==> settings.isProtected
  {
  }

  // ------------------------------------------------------------- parameters

  /** A statement parameter: a tuple of parameters or any other single value,
      kept as the text the driver receives. */
  datatype Param = Tuple(items: seq<Param>) | Scalar(text: string)

  /** `if not isinstance(inputs, tuple): inputs = (inputs,)`. */
  function Normalise(inputs: Param): (r: Param)
    ensures r.Tuple?
    ensures inputs.Tuple? ==> r == inputs
    ensures !inputs.Tuple? ==> r.items == [inputs]
  {
    if inputs.Tuple? then inputs else Tuple([inputs])
  }

  /** Normalising twice is normalising once. */
  lemma NormaliseIdempotent(inputs: Param)
    ensures Normalise(Normalise(inputs)) == Normalise(inputs)
  {
  }

  // -------------------------------------------------------------------- rows

  /** A row as the server sends it: column names paired with values. */
  type Row = seq<(string, string)>

  /** A row as the cursor yields it: a dictionary keyed by column name when the
      cursor was opened with `dictionary=True`, a tuple of values otherwise. */
  datatype Shaped = DictRow(fields: map<string, string>) | TupleRow(values: seq<string>)

  /** The dictionary of a row; a later column of the same name overrides an earlier one. */
  function RowMap(row: Row): (m: map<string, string>)
    ensures forall i | 0 <= i < |row| :: row[i].0 in m
    ensures forall k | k in m :: exists i | 0 <= i < |row| :: row[i].0 == k
    decreases |row|
  {
    if |row| == 0 then map[]
    else
      var last := row[|row| - 1];
      var m := RowMap(row[..|row| - 1]);
      assert forall i | 0 <= i < |row| - 1 :: row[..|row| - 1][i] == row[i];
      m[last.0 := last.1]
  }

  function RowValues(row: Row): (v: seq<string>)
    ensures |v| == |row|
    ensures forall i | 0 <= i < |row| :: v[i] == row[i].1
  {
    seq(|row|, i requires 0 <= i < |row| => row[i].1)
  }

  function Shape(row: Row, dictionary: bool): (r: Shaped)
    ensures r.DictRow? <==> dictionary
  {
    if dictionary then DictRow(RowMap(row)) else TupleRow(RowValues(row))
  }

  /** In a dictionary row every column is found by its name, holding the value
      of the last column of that name. */
  lemma {:induction false} DictRowLookup(row: Row, i: nat)
    requires i < |row|
    requires forall j | i < j < |row| :: row[j].0 != row[i].0
    ensures RowMap(row)[row[i].0] == row[i].1
    decreases |row|
  {
    if i < |row| - 1 {
      var front := row[..|row| - 1];
      assert front[i] == row[i];
      assert forall j | i < j < |front| :: front[j] == row[j];
      DictRowLookup(front, i);
    }
  }

  // ------------------------------------------------------------------ fetching

  /** The value a call returns: `None`, one row (`fetchone`), or all rows (`fetchall`). */
  datatype Value = NoneValue | OneRow(row: Shaped) | AllRows(rows: seq<Shaped>)

  function ShapeAll(rows: seq<Row>, dictionary: bool): (r: seq<Shaped>)
    ensures |r| == |rows|
    ensures forall i | 0 <= i < |rows| :: r[i] == Shape(rows[i], dictionary)
  {
    seq(|rows|, i requires 0 <= i < |rows| => Shape(rows[i], dictionary))
  }

  /** Whether `fetch` asks for any rows at all: only 1 and 2 do. */
  predicate Fetches(fetch: int) {
    fetch == 1 || fetch == 2
  }

  /** The fetch dispatch on a freshly executed statement: `fetchone` gives the
      first row or `None` when there is none, `fetchall` gives every row, and any
      other mode leaves the result at `None`. */
  function Fetch(fetch: int, rows: seq<Row>, dictionary: bool): (r: Value)
    ensures !Fetches(fetch) ==> r == NoneValue
    ensures fetch == 1 ==> (r == NoneValue <==> |rows| == 0)
    ensures fetch == 1 && |rows| > 0 ==> r == OneRow(Shape(rows[0], dictionary))
    ensures fetch == 2 ==> r.AllRows? && r.rows == ShapeAll(rows, dictionary)
  {
    if fetch == 1 then (if |rows| == 0 then NoneValue else OneRow(Shape(rows[0], dictionary)))
    else if fetch == 2 then AllRows(ShapeAll(rows, dictionary))
    else NoneValue
  }

  // --------------------------------------------------------------- the driver

  /** What the server and the driver do with one call once the connection is
      open. `rows` is `Failure` when fetching raised; `execute`, `commit` and the
      two closes are `Some` when that call raised. */
  datatype QueryReply = QueryReply(
    execute: Option<Exc>,
    rows: Result<seq<Row>, Exc>,
    commit: Option<Exc>,
    cursorClose: Option<Exc>,
    connectionClose: Option<Exc>)

  /** The same for a procedure: each stored result set yields its rows or
      raises when fetched. */
  datatype ProcReply = ProcReply(
    callproc: Option<Exc>,
    stored: seq<Result<seq<Row>, Exc>>,
    commit: Option<Exc>,
    cursorClose: Option<Exc>,
    connectionClose: Option<Exc>)

  /** One call of a gate entry point. */
  datatype Request = Request(
    caller: Caller,
    statement: string,
    inputs: Param,
    fetch: int,
    database: Option<string>,
    dictionary: Option<bool>)

  /** What one call did: the factory's new state and the report of a failed
      connect, the parameters sent to the server (`None` when the statement was
      never sent), the error logged by the `except` clause, which of the two
      closes were called, and the value returned or the exception raised. */
  datatype Run = Run(
    factory: Connection.Factory,
    connectReport: Connection.Report,
    sent: Option<Param>,
    logged: Option<LogCall>,
    cursorClosed: bool,
    connectionClosed: bool,
    outcome: Result<Value, Exc>)

  /** The `try` body's end: the value `result` held and the error caught, if any. */
  datatype Body = Body(result: Value, error: Option<Exc>)

  /** The log call the `except` clause makes before `raise err`. */
  function ErrorCall(prefix: string, statement: string, err: Exc): LogCall {
    SimpleCall(8, prefix + statement, Some("DATABASE"), Some(err), Some(true), None, None)
  }

  /** The `finally` clause: close the cursor, then the connection, then
      `return result`. An exception from a close replaces everything; the
      connection is not closed when the cursor's close raised. */
  function Finish(factory: Connection.Factory, sent: Param, logged: Option<LogCall>, result: Value,
                  cursorClose: Option<Exc>, connectionClose: Option<Exc>): (r: Run)
    ensures r.cursorClosed
    ensures r.connectionClosed <==> cursorClose.None?
    ensures r.outcome.Failure? <==> cursorClose.Some? || connectionClose.Some?
    ensures r.outcome.Success? ==> r.outcome.value == result
    ensures r.outcome.Failure? ==>
      r.outcome.error == (if cursorClose.Some? then cursorClose.value else connectionClose.value)
  {
    if cursorClose.Some? then
      Run(factory, Connection.Quiet, Some(sent), logged, true, false, Failure(cursorClose.value))
    else if connectionClose.Some? then
      Run(factory, Connection.Quiet, Some(sent), logged, true, true, Failure(connectionClose.value))
    else
      Run(factory, Connection.Quiet, Some(sent), logged, true, true, Success(result))
  }

  /** The common frame of both entry points: protection, the factory call
      outside the `try`, the body, the `except` logging and the `finally`. */
  function Frame(settings: Settings, factory: Connection.Factory, req: Request, name: string,
                 prefix: string, connectReply: Option<Exc>, body: bool -> Body,
                 cursorClose: Option<Exc>, connectionClose: Option<Exc>): (r: Run)
  {
    match Guard(settings, req.caller, name)
    case Some(denied) => Run(factory, Connection.Quiet, None, None, false, false, Failure(denied))
    case None =>
      var attempt := Connection.Connect(settings, factory, req.database, req.dictionary, connectReply);
      match attempt.outcome
      case Failure(err) => Run(attempt.factory, attempt.report, None, None, false, false, Failure(err))
      case Success(handle) =>
        var b := body(handle.dictionary);
        var logged := if b.error.Some? then Some(ErrorCall(prefix, req.statement, b.error.value)) else None;
        Finish(attempt.factory, Normalise(req.inputs), logged, b.result, cursorClose, connectionClose)
  }

  /** The `try` body of `_db_query`: execute, fetch, commit. */
  function QueryBody(fetch: int, reply: QueryReply, dictionary: bool): (b: Body)
    ensures reply.execute.Some? ==> b == Body(NoneValue, reply.execute)
    ensures b.error.None? <==>
      reply.execute.None? && (Fetches(fetch) ==> reply.rows.Success?) && reply.commit.None?
  {
    if reply.execute.Some? then Body(NoneValue, reply.execute)
    else if Fetches(fetch) && reply.rows.Failure? then Body(NoneValue, Some(reply.rows.error))
    else
      var result := if Fetches(fetch) then Fetch(fetch, reply.rows.value, dictionary) else NoneValue;
      Body(result, reply.commit)
  }

  /** `_db_query(query, inputs, fetch, database, is_dictionary)`. */
  function Query(settings: Settings, factory: Connection.Factory, req: Request,
                 connectReply: Option<Exc>, reply: QueryReply): (r: Run)
    // only protection, the connect and the two closes can make the call raise
    ensures r.outcome.Failure? <==>
      || Guard(settings, req.caller, "_db_query").Some? || connectReply.Some?
      || reply.cursorClose.Some? || reply.connectionClose.Some?
    // once the statement was sent, the cursor is closed
    ensures r.sent.Some? <==> Guard(settings, req.caller, "_db_query").None? && connectReply.None?
    ensures r.sent.Some? ==> r.sent.value == Normalise(req.inputs) && r.cursorClosed
    ensures r.logged.Some? ==> r.sent.Some?
  {
    Frame(settings, factory, req, "_db_query", "DB_QUERY: ", connectReply,
          dictionary => QueryBody(req.fetch, reply, dictionary),
          reply.cursorClose, reply.connectionClose)
  }

  /** The loop over `cursor.stored_results()`: every set is fetched according
      to `fetch`, each fetch overwriting `result`; a fetch that raises ends the
      loop with `result` as the previous fetch left it. */
  function Drain(fetch: int, stored: seq<Result<seq<Row>, Exc>>, dictionary: bool, result: Value): (b: Body)
    ensures !Fetches(fetch) ==> b == Body(result, None)
    decreases |stored|
  {
    if |stored| == 0 || !Fetches(fetch) then Body(result, None)
    else if stored[0].Failure? then Body(result, Some(stored[0].error))
    else Drain(fetch, stored[1..], dictionary, Fetch(fetch, stored[0].value, dictionary))
  }

  /** The `try` body of `_db_call_procedure`: callproc, drain the result sets, commit. */
  function ProcedureBody(fetch: int, reply: ProcReply, dictionary: bool): Body {
    if reply.callproc.Some? then Body(NoneValue, reply.callproc)
    else
      var drained := Drain(fetch, reply.stored, dictionary, NoneValue);
      if drained.error.Some? then drained else Body(drained.result, reply.commit)
  }

  /** `_db_call_procedure(procedure_name, inputs, fetch, database, is_dictionary)`. */
  function Procedure(settings: Settings, factory: Connection.Factory, req: Request,
                     connectReply: Option<Exc>, reply: ProcReply): (r: Run)
    ensures r.outcome.Failure? <==>
      || Guard(settings, req.caller, "_db_call_procedure").Some? || connectReply.Some?
      || reply.cursorClose.Some? || reply.connectionClose.Some?
    ensures r.sent.Some? <==> Guard(settings, req.caller, "_db_call_procedure").None? && connectReply.None?
    ensures r.sent.Some? ==> r.sent.value == Normalise(req.inputs) && r.cursorClosed
    ensures r.logged.Some? ==> r.sent.Some?
  {
    Frame(settings, factory, req, "_db_call_procedure", "DB_PROCEDURE: ", connectReply,
          dictionary => ProcedureBody(req.fetch, reply, dictionary),
          reply.cursorClose, reply.connectionClose)
  }

  // ------------------------------------------------------------ properties

  /** The row shape the cursor was opened with. */
  function ShapeOf(settings: Settings, req: Request): bool {
    req.dictionary.GetOr(settings.isDictionary)
  }

  /** Protection is decided before anything else: a refused call opens no
      connection, sends nothing and raises the `PermissionError`. */
  lemma RefusedCallDoesNothing(settings: Settings, factory: Connection.Factory, req: Request,
                               connectReply: Option<Exc>, reply: QueryReply, preply: ProcReply)
    requires Guard(settings, req.caller, "_db_query").Some?
    ensures var r := Query(settings, factory, req, connectReply, reply);
      && r.factory == factory && r.sent.None? && !r.cursorClosed
      && r.outcome == Failure(PermissionError(ProtectedMessage("_db_query")))
    ensures var r := Procedure(settings, factory, req, connectReply, preply);
      && r.factory == factory && r.sent.None? && !r.cursorClosed
      && r.outcome == Failure(PermissionError(ProtectedMessage("_db_call_procedure")))
  {
  }

  /** A failed connect happens outside the `try`: its exception propagates,
      nothing is sent, logged by the gate or closed. */
  lemma ConnectFailurePropagates(settings: Settings, factory: Connection.Factory, req: Request,
                                 err: Exc, reply: QueryReply)
    requires Guard(settings, req.caller, "_db_query").None?
    ensures var r := Query(settings, factory, req, Some(err), reply);
      && r.outcome == Failure(err) && r.sent.None? && r.logged.None?
      && !r.cursorClosed && !r.connectionClosed
  {
  }

  /** Once connected, the cursor is closed on every path, the connection too
      unless closing the cursor raised, and the parameters sent are the
      normalised inputs. */
  lemma QueryClosesOnEveryPath(settings: Settings, factory: Connection.Factory, req: Request,
                               reply: QueryReply)
    requires Guard(settings, req.caller, "_db_query").None?
    ensures var r := Query(settings, factory, req, None, reply);
      && r.sent == Some(Normalise(req.inputs))
      && r.cursorClosed
      && (r.connectionClosed <==> reply.cursorClose.None?)
      && r.factory.everConnected
  {
  }

  /** The `return` in `finally` swallows every error of the body: unless a
      close raises, the call returns -- `None` when the statement failed, the
      completed fetch when only the commit failed -- after logging the error. */
  lemma QueryErrorsSwallowed(settings: Settings, factory: Connection.Factory, req: Request,
                             reply: QueryReply)
    requires Guard(settings, req.caller, "_db_query").None?
    requires reply.cursorClose.None? && reply.connectionClose.None?
    ensures var r := Query(settings, factory, req, None, reply);
      && r.outcome.Success?
      && (reply.execute.Some? ==>
            r.outcome.value == NoneValue && r.logged == Some(ErrorCall("DB_QUERY: ", req.statement, reply.execute.value)))
      && (reply.execute.None? && reply.rows.Success? && reply.commit.Some? ==>
            r.outcome.value == Fetch(req.fetch, reply.rows.value, ShapeOf(settings, req))
            && r.logged == Some(ErrorCall("DB_QUERY: ", req.statement, reply.commit.value)))
  {
  }

  /** A fetch that raises is logged and swallowed like any other error of the
      body: `result` was never assigned, so the call returns `None`. */
  lemma QueryFetchFailureSwallowed(settings: Settings, factory: Connection.Factory, req: Request,
                                   err: Exc, commit: Option<Exc>)
    requires Guard(settings, req.caller, "_db_query").None?
    requires Fetches(req.fetch)
    ensures var r := Query(settings, factory, req, None, QueryReply(None, Failure(err), commit, None, None));
      && r.outcome == Success(NoneValue)
      && r.logged == Some(ErrorCall("DB_QUERY: ", req.statement, err))
  {
  }

  /** Without errors, a query returns the fetch dispatch of its rows and logs nothing. */
  lemma QueryReturnsFetch(settings: Settings, factory: Connection.Factory, req: Request, reply: QueryReply)
    requires Guard(settings, req.caller, "_db_query").None?
    requires reply.execute.None? && reply.rows.Success? && reply.commit.None?
    requires reply.cursorClose.None? && reply.connectionClose.None?
    ensures var r := Query(settings, factory, req, None, reply);
      r.outcome == Success(Fetch(req.fetch, reply.rows.value, ShapeOf(settings, req))) && r.logged.None?
  {
  }

  /** The reference definition of the procedure's result: the fetch of the
      last stored result set, `None` when there is none. */
  function LastFetch(fetch: int, stored: seq<seq<Row>>, dictionary: bool): Value {
    if |stored| == 0 then NoneValue else Fetch(fetch, stored[|stored| - 1], dictionary)
  }

  function Succeeded(sets: seq<seq<Row>>): seq<Result<seq<Row>, Exc>> {
    seq(|sets|, i requires 0 <= i < |sets| => Success(sets[i]))
  }

  /** When every result set can be fetched, the loop leaves the fetch of the
      last one in `result`: the last result set wins. */
  lemma {:induction false} DrainLastWins(fetch: int, sets: seq<seq<Row>>, dictionary: bool, result: Value)
    requires Fetches(fetch)
    ensures Drain(fetch, Succeeded(sets), dictionary, result)
         == Body(if |sets| == 0 then result else LastFetch(fetch, sets, dictionary), None)
    decreases |sets|
  {
    if |sets| > 0 {
      assert Succeeded(sets)[1..] == Succeeded(sets[1..]);
      DrainLastWins(fetch, sets[1..], dictionary, Fetch(fetch, sets[0], dictionary));
    }
  }

  /** A procedure whose result sets all fetch returns the last set's fetch
      (`None` with no result sets or a fetch mode other than 1 and 2). */
  lemma ProcedureReturnsLastSet(settings: Settings, factory: Connection.Factory, req: Request,
                                sets: seq<seq<Row>>, commit: Option<Exc>)
    requires Guard(settings, req.caller, "_db_call_procedure").None?
    ensures var r := Procedure(settings, factory, req, None, ProcReply(None, Succeeded(sets), commit, None, None));
      && r.outcome == Success(if Fetches(req.fetch) then LastFetch(req.fetch, sets, ShapeOf(settings, req)) else NoneValue)
      && (r.logged.Some? <==> commit.Some?)
  {
    if Fetches(req.fetch) {
      DrainLastWins(req.fetch, sets, ShapeOf(settings, req), NoneValue);
    }
  }

  /** A failed `callproc` is logged and swallowed: the call returns `None`. */
  lemma ProcedureErrorSwallowed(settings: Settings, factory: Connection.Factory, req: Request,
                                err: Exc, stored: seq<Result<seq<Row>, Exc>>, commit: Option<Exc>)
    requires Guard(settings, req.caller, "_db_call_procedure").None?
    ensures var r := Procedure(settings, factory, req, None, ProcReply(Some(err), stored, commit, None, None));
      && r.outcome == Success(NoneValue)
      && r.logged == Some(ErrorCall("DB_PROCEDURE: ", req.statement, err))
  {
  }

  /** The loop stops at the first result set whose fetch raises, with
      `result` as the set before it left it. */
  lemma {:induction false} DrainStopsAtFailure(fetch: int, sets: seq<seq<Row>>, err: Exc,
                                               rest: seq<Result<seq<Row>, Exc>>, dictionary: bool, result: Value)
    requires Fetches(fetch)
    ensures Drain(fetch, Succeeded(sets) + [Failure(err)] + rest, dictionary, result)
         == Body(if |sets| == 0 then result else LastFetch(fetch, sets, dictionary), Some(err))
    decreases |sets|
  {
    var stored := Succeeded(sets) + [Failure(err)] + rest;
    if |sets| == 0 {
      assert stored[0] == Failure(err);
    } else {
      assert stored[0] == Success(sets[0]);
      assert stored[1..] == Succeeded(sets[1..]) + [Failure(err)] + rest;
      DrainStopsAtFailure(fetch, sets[1..], err, rest, dictionary, Fetch(fetch, sets[0], dictionary));
    }
  }

  /** A result set whose fetch raises mid-loop is logged and swallowed: the
      call returns what the previous set's fetch left in `result`. */
  lemma ProcedureFetchFailureSwallowed(settings: Settings, factory: Connection.Factory, req: Request,
                                       sets: seq<seq<Row>>, err: Exc, rest: seq<Result<seq<Row>, Exc>>,
                                       commit: Option<Exc>)
    requires Guard(settings, req.caller, "_db_call_procedure").None?
    requires Fetches(req.fetch)
    ensures var r := Procedure(settings, factory, req, None,
                               ProcReply(None, Succeeded(sets) + [Failure(err)] + rest, commit, None, None));
      && r.outcome == Success(if |sets| == 0 then NoneValue else LastFetch(req.fetch, sets, ShapeOf(settings, req)))
      && r.logged == Some(ErrorCall("DB_PROCEDURE: ", req.statement, err))
  {
    DrainStopsAtFailure(req.fetch, sets, err, rest, ShapeOf(settings, req), NoneValue);
  }

  /** Once connected, a procedure call closes the cursor on every path, the
      connection too unless closing the cursor raised, and sends the
      normalised inputs. */
  lemma ProcedureClosesOnEveryPath(settings: Settings, factory: Connection.Factory, req: Request,
                                   reply: ProcReply)
    requires Guard(settings, req.caller, "_db_call_procedure").None?
    ensures var r := Procedure(settings, factory, req, None, reply);
      && r.sent == Some(Normalise(req.inputs))
      && r.cursorClosed
      && (r.connectionClosed <==> reply.cursorClose.None?)
      && r.factory.everConnected
  {
  }
}

=== FILE: logsink.dfy ===
/** The log sink: `log` (`wavesql/database.py:470-558`), which composes a
    message, stores it through the `insert_log` procedure (`__save_log_query`,
    `:455-468`) and echoes it to the console; and `__print_log` (`:560-593`),
    which renders one console line. */
module LogSink {
  import opened Wrappers
  import opened Records
  import Text
  import Scripts
  import Gate
  import Connection

  // ------------------------------------------------------------- resolution

  /** The options of one call after the unset ones took the session's defaults. */
  datatype Options = Options(
    console: bool, backtrace: bool, raiseOnFail: bool, sep: string, level: int, origin: string)

  /** Lines 518-529: every option left unset takes the session's value. */
  function Resolve(settings: Settings, call: LogCall): (o: Options)
    ensures o.console == call.console.GetOr(settings.isConsoleLog)
    ensures o.backtrace == call.backtrace.GetOr(settings.isLogBacktrace)
    ensures o.raiseOnFail == call.raiseOnFail.GetOr(settings.raiseLogOnFail)
    ensures o.sep == call.sep.GetOr(settings.defaultSep)
    ensures o.level == call.level.GetOr(settings.defaultLevel)
    ensures o.origin == call.origin.GetOr(settings.defaultOrigin)
  {
    Options(call.console.GetOr(settings.isConsoleLog), call.backtrace.GetOr(settings.isLogBacktrace),
            call.raiseOnFail.GetOr(settings.raiseLogOnFail), call.sep.GetOr(settings.defaultSep),
            call.level.GetOr(settings.defaultLevel), call.origin.GetOr(settings.defaultOrigin))
  }

  /** The call passes every option itself. */
  predicate AllExplicit(call: LogCall) {
    call.console.Some? && call.backtrace.Some? && call.raiseOnFail.Some?
    && call.sep.Some? && call.level.Some? && call.origin.Some?
  }

  /** A call that passes every option does not depend on the session's
      defaults; a call that passes none takes all of them. */
  lemma ResolveDefaults(s1: Settings, s2: Settings, call: LogCall)
    ensures AllExplicit(call) ==> Resolve(s1, call) == Resolve(s2, call)
    ensures call.console.None? && call.backtrace.None? && call.raiseOnFail.None?
            && call.sep.None? && call.level.None? && call.origin.None?
        ==> Resolve(s1, call) == Options(s1.isConsoleLog, s1.isLogBacktrace, s1.raiseLogOnFail,
                                         s1.defaultSep, s1.defaultLevel, s1.defaultOrigin)
  {
  }

  // ------------------------------------------------------------ composition

  /** `[str(text)] if text != "" else []`: an exception is never equal to `""`,
      so it always contributes, even when its text is empty. */
  function TextPart(text: LogText): (p: seq<string>)
    ensures |p| <= 1
    ensures p == [] <==> text == Plain("")
    ensures text.Plain? && text.s != "" ==> p == [text.s]
    ensures text.Thrown? ==> p == [ExcText(text.e)]
  {
    match text
    case Plain(s) => if s == "" then [] else [s]
    case Thrown(e) => [ExcText(e)]
  }

  /** `f"{k}={v}"`. */
  function KwargText(kv: (string, string)): string {
    kv.0 + "=" + kv.1
  }

  /** Every keyword argument as `key=value`, in call order. */
  function KwargTexts(kwargs: seq<(string, string)>): (ts: seq<string>)
    ensures |ts| == |kwargs|
    ensures forall i | 0 <= i < |kwargs| :: ts[i] == KwargText(kwargs[i])
  {
    seq(|kwargs|, i requires 0 <= i < |kwargs| => KwargText(kwargs[i]))
  }

  /** The keyword arguments as one `key=value` string joined by `sep`, or
      nothing at all when there are none. */
  function KwargPart(kwargs: seq<(string, string)>, sep: string): (p: seq<string>)
    ensures |p| == (if |kwargs| == 0 then 0 else 1)
    ensures |kwargs| > 0 ==> p == [Text.Join(sep, KwargTexts(kwargs))]
  {
    if |kwargs| == 0 then [] else [Text.Join(sep, KwargTexts(kwargs))]
  }

  /** With a one-character separator that no key or value contains, the
      keyword part splits back into the `key=value` strings, one per argument. */
  lemma KwargPartSplits(kwargs: seq<(string, string)>, c: char)
    requires |kwargs| > 0
    requires forall i | 0 <= i < |kwargs| :: c !in kwargs[i].0 && c != '=' && c !in kwargs[i].1
    ensures Text.Split(KwargPart(kwargs, [c])[0], c) == KwargTexts(kwargs)
  {
    var ts := KwargTexts(kwargs);
    forall i | 0 <= i < |ts|
      ensures c !in ts[i]
    {
      assert ts[i] == kwargs[i].0 + "=" + kwargs[i].1;
    }
    Text.SplitJoin(ts, c);
  }

  /** Lines 531-536: the text, then every positional argument, then the keyword part. */
  function Parts(call: LogCall, sep: string): (parts: seq<string>)
    ensures |parts| == |TextPart(call.text)| + |call.args| + |KwargPart(call.kwargs, sep)|
    ensures parts[..|TextPart(call.text)|] == TextPart(call.text)
    ensures parts[|TextPart(call.text)|..|TextPart(call.text)| + |call.args|] == call.args
    ensures parts[|TextPart(call.text)| + |call.args|..] == KwargPart(call.kwargs, sep)
  {
    var t := TextPart(call.text);
    var p := t + call.args + KwargPart(call.kwargs, sep);
    assert p[..|t|] == t;
    assert p[|t|..|t| + |call.args|] == call.args;
    assert p[|t| + |call.args|..] == KwargPart(call.kwargs, sep);
    p
  }

  /** Line 538: `msg = sep.join(parts)`. */
  function Message(settings: Settings, call: LogCall): string {
    var sep := Resolve(settings, call).sep;
    Text.Join(sep, Parts(call, sep))
  }

  /** With a one-character separator that none of the parts contains, the
      message splits back into exactly its parts. */
  lemma MessageSplitsIntoParts(settings: Settings, call: LogCall, c: char)
    requires Resolve(settings, call).sep == [c]
    requires |Parts(call, [c])| >= 1
    requires forall i | 0 <= i < |Parts(call, [c])| :: c !in Parts(call, [c])[i]
    ensures Text.Split(Message(settings, call), c) == Parts(call, [c])
  {
    Text.SplitJoin(Parts(call, [c]), c);
  }

  /** An empty text with no other arguments gives the empty message; a
      non-empty text alone is the message as it is. */
  lemma MessageOfTextAlone(settings: Settings, call: LogCall)
    requires |call.args| == 0 && |call.kwargs| == 0
    ensures call.text == Plain("") ==> Message(settings, call) == ""
    ensures call.text.Plain? && call.text.s != "" ==> Message(settings, call) == call.text.s
    ensures call.text.Thrown? ==> Message(settings, call) == ExcText(call.text.e)
  {
    var sep := Resolve(settings, call).sep;
    assert Parts(call, sep) == TextPart(call.text);
  }

  /** An exception whose text is empty still takes a place: the message then
      starts with the separator. */
  lemma EmptyExceptionKeepsItsPlace(settings: Settings, call: LogCall, e: Exc, arg: string)
    requires call.text == Thrown(e) && ExcText(e) == ""
    requires call.args == [arg] && |call.kwargs| == 0
    ensures Message(settings, call) == Resolve(settings, call).sep + arg
  {
    var sep := Resolve(settings, call).sep;
    assert Parts(call, sep) == ["", arg];
    assert Text.Join(sep, ["", arg][1..]) == arg;
  }

  /** Lines 540-545: the formatted `err` if given, else the formatted `text`
      if it is an exception, else `""`. */
  function Backtrace(call: LogCall): (b: string)
    ensures b == "" <==> call.err.None? && !call.text.Thrown?
    ensures call.err.Some? ==> b == FormatException(call.err.value)
    ensures call.err.None? && call.text.Thrown? ==> b == FormatException(call.text.e)
  {
    if call.err.Some? then FormatException(call.err.value)
    else if call.text.Thrown? then FormatException(call.text.e)
    else ""
  }

  // ------------------------------------------------------------ persistence

  /** The arguments of `__save_log_query`. */
  datatype Record = Record(level: int, origin: string, message: string, backtrace: string)

  /** What storing the record came back with: the stored row (`fetchone` as a
      dictionary), no row (`None`), or an exception. */
  datatype Persisted = Row(fields: map<string, string>) | NoRow | Raised(error: Exc)

  const InsertLog: string := "insert_log"

  /** `__save_log_query`: the `insert_log` procedure with the record as its
      parameters, one row fetched as a dictionary, on the configured database,
      called from a method of the session itself. */
  function SaveRequest(settings: Settings, rec: Record): (req: Gate.Request)
    ensures req.statement == InsertLog && req.fetch == 1
    ensures req.database.None? && req.dictionary == Some(true)
    ensures req.inputs == Gate.Tuple([Gate.Scalar(Scripts.IntText(rec.level)), Gate.Scalar(rec.origin),
                                      Gate.Scalar(rec.message), Gate.Scalar(rec.backtrace)])
    ensures Gate.Guard(settings, req.caller, "_db_call_procedure").None?
  {
    var params := Gate.Tuple([Gate.Scalar(Scripts.IntText(rec.level)), Gate.Scalar(rec.origin),
                              Gate.Scalar(rec.message), Gate.Scalar(rec.backtrace)]);
    Gate.Request(Gate.SessionCaller(settings), InsertLog, params, 1, None, Some(true))
  }

  /** Storing a record through the gate, with `connectReply` and `reply` the
      driver's outcomes; also gives the factory's state afterwards. */
  function Persist(settings: Settings, factory: Connection.Factory, rec: Record,
                   connectReply: Option<Exc>, reply: Gate.ProcReply): (p: (Persisted, Connection.Factory))
    ensures p.0.Raised? <==> connectReply.Some? || reply.cursorClose.Some? || reply.connectionClose.Some?
  {
    var run := Gate.Procedure(settings, factory, SaveRequest(settings, rec), connectReply, reply);
    var persisted :=
      if run.outcome.Failure? then Raised(run.outcome.error)
      else if run.outcome.value.OneRow? && run.outcome.value.row.DictRow? then Row(run.outcome.value.row.fields)
      else NoRow;
    (persisted, run.factory)
  }

  /** A failing `insert_log` statement is swallowed by the gate: the sink sees
      no row, not an exception, so it does not force the console echo. */
  lemma FailedInsertIsNoRow(settings: Settings, factory: Connection.Factory, rec: Record,
                            err: Exc, stored: seq<Result<seq<Gate.Row>, Exc>>, commit: Option<Exc>)
    ensures Persist(settings, factory, rec, None, Gate.ProcReply(Some(err), stored, commit, None, None)).0 == NoRow
  {
    Gate.ProcedureErrorSwallowed(settings, factory, SaveRequest(settings, rec), err, stored, commit);
  }

  /** When the procedure's last result set starts with a row, that row,
      keyed by column name, is what the sink sees. */
  lemma StoredRowIsLastSetsFirst(settings: Settings, factory: Connection.Factory, rec: Record,
                                 sets: seq<seq<Gate.Row>>)
    requires |sets| > 0 && |sets[|sets| - 1]| > 0
    ensures Persist(settings, factory, rec, None, Gate.ProcReply(None, Gate.Succeeded(sets), None, None, None)).0
         == Row(Gate.RowMap(sets[|sets| - 1][0]))
  {
    Gate.ProcedureReturnsLastSet(settings, factory, SaveRequest(settings, rec), sets, None);
  }

  // ---------------------------------------------------------------- the sink

  const DefaultMessage: string := "Unloggable error !!!"

  /** What one `log` call does: the record it stores and the `__print_log` call it
      makes, if any. */
  datatype Effect = Effect(record: Record, printed: Option<PrintRequest>)

  /** Lines 546-558, with `persisted` what storing the record came back with. */
  function Log(settings: Settings, call: LogCall, persisted: Persisted): (r: Effect)
    ensures var o := Resolve(settings, call);
      r.record == Record(o.level, o.origin, Message(settings, call), Backtrace(call))
    // the echo is forced when storing raised, and suppressed only when console output is off
    ensures r.printed.Some? <==> persisted.Raised? || Resolve(settings, call).console
    // a stored (non-empty) row is printed from the row, with the backtrace only on request
    ensures persisted.Row? && persisted.fields != map[] && r.printed.Some? ==>
      r.printed.value == DefaultHeaderPrint(
        Some(persisted.fields),
        if Resolve(settings, call).backtrace && Backtrace(call) != "" then Some(Backtrace(call)) else None,
        DefaultMessage)
    // otherwise the header falls back to the defaults and the composed message
    ensures (persisted.NoRow? || persisted.Raised? || persisted == Row(map[])) && r.printed.Some? ==>
      && r.printed.value.defMsg == Message(settings, call)
      && r.printed.value.log == (if persisted.NoRow? then None else Some(map[]))
      && r.printed.value.backtrace == Some(if persisted.Raised? then ExcText(persisted.error) else Backtrace(call))
  {
    var o := Resolve(settings, call);
    var msg := Message(settings, call);
    var bt := Backtrace(call);
    var rec := Record(o.level, o.origin, msg, bt);
    match persisted
    case Raised(e) =>
      Effect(rec, Some(DefaultHeaderPrint(Some(map[]), Some(ExcText(e)), msg)))
    case NoRow =>
      Effect(rec, if o.console then Some(DefaultHeaderPrint(None, Some(bt), msg)) else None)
    case Row(m) =>
      if !o.console then Effect(rec, None)
      else if m == map[] then Effect(rec, Some(DefaultHeaderPrint(Some(m), Some(bt), msg)))
      else Effect(rec, Some(DefaultHeaderPrint(Some(m), if o.backtrace && bt != "" then Some(bt) else None, DefaultMessage)))
  }

  /** `is_raise_on_fail`, passed or defaulted, changes nothing a call does. */
  lemma RaiseFlagIgnored(settings: Settings, call: LogCall, persisted: Persisted, a: bool, b: Option<bool>)
    ensures Log(settings.(raiseLogOnFail := a), call.(raiseOnFail := b), persisted) == Log(settings, call, persisted)
  {
  }

  // --------------------------------------------------------------- rendering

  /** `d.get(key, default)`. */
  function Get(d: map<string, string>, key: string, default: string): string {
    if key in d then d[key] else default
  }

  /** `__print_log(...)`: the console line it prints, or the `KeyError` it
      raises when no row is given and `def_color` is not a colour name. */
  function Render(req: PrintRequest): (r: Result<ConsoleLine, Exc>)
    ensures r.Failure? <==> req.log.None? && req.defColor !in Palette
    ensures r.Success? ==> r.value.backtrace == req.backtrace
    ensures r.Success? && req.log.None? ==>
      r.value == ConsoleLine(Named(req.defColor), Now, req.defLevel, req.defOrigin, req.defMsg, req.backtrace)
    ensures r.Success? && req.log.Some? ==>
      && r.value.color == (if Get(req.log.value, "log_level_color_name", req.defColor) in Palette
                           then Named(Get(req.log.value, "log_level_color_name", req.defColor)) else ForeRed)
      && r.value.stamp == (if "log_date" in req.log.value then RowDate(req.log.value["log_date"]) else DefinitionTime)
      && r.value.level == Get(req.log.value, "log_level_name", req.defLevel)
      && r.value.origin == Get(req.log.value, "log_module", req.defOrigin)
      && r.value.message == Get(req.log.value, "log_message", req.defMsg)
  {
    match req.log
    case Some(m) =>
      var colorName := Get(m, "log_level_color_name", req.defColor);
      Success(ConsoleLine(
        if colorName in Palette then Named(colorName) else ForeRed,
        if "log_date" in m then RowDate(m["log_date"]) else DefinitionTime,
        Get(m, "log_level_name", req.defLevel),
        Get(m, "log_module", req.defOrigin),
        Get(m, "log_message", req.defMsg),
        req.backtrace))
    case None =>
      if req.defColor in Palette then
        Success(ConsoleLine(Named(req.defColor), Now, req.defLevel, req.defOrigin, req.defMsg, req.backtrace))
      else
        Failure(OtherError("KeyError", "'" + req.defColor + "'"))
  }

  /** The printed text, with `time` the rendered timestamp:
      `[time] [level] [origin] message`, then a newline and the backtrace when
      there is one. */
  function Display(line: ConsoleLine, time: string): string {
    var header := "[" + time + "] [" + line.level + "] [" + line.origin + "] " + line.message;
    if line.backtrace.Some? then header + "\n" + line.backtrace.value else header
  }

  /** An empty backtrace is still printed: the line ends with a bare newline. */
  lemma EmptyBacktraceEndsInNewline(line: ConsoleLine, time: string)
    requires line.backtrace == Some("")
    ensures |Display(line, time)| > 0 && Display(line, time)[|Display(line, time)| - 1] == '\n'
  {
  }

  /** Every line the sink prints renders: it never reaches the `KeyError`. */
  lemma SinkLinesRender(settings: Settings, call: LogCall, persisted: Persisted)
    ensures var r := Log(settings, call, persisted);
      r.printed.Some? ==> Render(r.printed.value).Success?
  {
  }

  /** When storing raised, the line is forced out with the fallback header:
      the colour `LIGHTRED`, the timestamp frozen when `__print_log` was
      defined, level `ERROR`, origin `logs`, the composed message, and the
      exception's text as backtrace. */
  lemma RaisedEchoLine(settings: Settings, call: LogCall, e: Exc)
    ensures var r := Log(settings, call, Raised(e));
      && r.printed.Some?
      && Render(r.printed.value)
         == Success(ConsoleLine(Named("LIGHTRED"), DefinitionTime, "ERROR", "logs", Message(settings, call), Some(ExcText(e))))
  {
  }

  /** When no row came back, the line carries the clock time, the `ERROR` and
      `logs` defaults and the composed message, followed by the backtrace even
      when it is empty. */
  lemma NoRowEchoLine(settings: Settings, call: LogCall)
    requires Resolve(settings, call).console
    ensures var r := Log(settings, call, NoRow);
      && r.printed.Some?
      && Render(r.printed.value)
         == Success(ConsoleLine(Named("LIGHTRED"), Now, "ERROR", "logs", Message(settings, call), Some(Backtrace(call))))
  {
  }

  /** A stored row prints its own level name, module and message, and the
      backtrace only when backtrace echo is on and there is one. */
  lemma RowEchoLine(settings: Settings, call: LogCall, m: map<string, string>)
    requires Resolve(settings, call).console
    requires "log_level_name" in m && "log_module" in m && "log_message" in m
    ensures var r := Log(settings, call, Row(m));
      && r.printed.Some?
      && Render(r.printed.value).Success?
      && var line := Render(r.printed.value).value;
      && line.level == m["log_level_name"]
      && line.origin == m["log_module"]
      && line.message == m["log_message"]
      && (line.backtrace.Some? <==> Resolve(settings, call).backtrace && (call.err.Some? || call.text.Thrown?))
  {
  }

  /** With console output off, a call whose record was stored (or not) prints nothing. */
  lemma QuietWhenConsoleOff(settings: Settings, call: LogCall, persisted: Persisted)
    requires !Resolve(settings, call).console && !persisted.Raised?
    ensures Log(settings, call, persisted).printed.None?
  {
  }
}

=== FILE: provision.dfy ===
/** Provisioning of the bundled default scripts (`wavesql/database.py:176-199`):
    every bundled file whose name was not discovered is copied into the script
    root, with one console line per copy, or one "all found" line when nothing
    is missing. */
module Provision {
  import opened Wrappers
  import opened Records
  import opened Scripts
  import opened Trace

  /** The bundled default scripts: file name to statement units. */
  type Bundle = map<string, seq<Unit>>

  /** `required_files - found_filenames`. */
  function MissingNames(bundled: Bundle, found: seq<ScriptFile>): set<string> {
    bundled.Keys - Names(found)
  }

  /** `order` lists every element of `s` exactly once: the iteration order of a
      Python set, which the hash seed decides. */
  predicate Enumerates(order: seq<string>, s: set<string>) {
    && (forall i, j | 0 <= i < j < |order| :: order[i] != order[j])
    && (forall i | 0 <= i < |order| :: order[i] in s)
    && (forall x | x in s :: x in order)
  }

  /** The files of `tree` except those at `path`. */
  function Without(tree: seq<ScriptFile>, path: ScriptPath): (r: seq<ScriptFile>)
    ensures forall f :: f in r <==> f in tree && f.path != path
    decreases |tree|
  {
    if |tree| == 0 then []
    else
      assert forall f :: f in tree <==> f == tree[0] || f in tree[1..] by {
        assert tree == [tree[0]] + tree[1..];
      }
      (if tree[0].path != path then [tree[0]] else []) + Without(tree[1..], path)
  }

  /** `shutil.copy(src, path_to_sql / name)`: the copy replaces any file of the
      same name at the root and the listing then shows it last. */
  function CopyToRoot(tree: seq<ScriptFile>, name: string, units: seq<Unit>): seq<ScriptFile> {
    Without(tree, ScriptPath([], name)) + [ScriptFile(ScriptPath([], name), units)]
  }

  /** The tree after copying `order` one by one. */
  function CopyAll(tree: seq<ScriptFile>, bundled: Bundle, order: seq<string>): seq<ScriptFile>
    requires forall i | 0 <= i < |order| :: order[i] in bundled
    decreases |order|
  {
    if |order| == 0 then tree
    else CopyAll(CopyToRoot(tree, order[0], bundled[order[0]]), bundled, order[1..])
  }

  /** The console line after copying `name`. */
  function CopyLine(root: string, name: string): PrintRequest {
    PrintRequest(None, None, "INFO", "DATABASE", "CYAN",
                 "Copied file " + name + " from local folder to " + root + "/" + name)
  }

  /** The console line when nothing was missing. */
  const AllFoundLine: PrintRequest :=
    PrintRequest(None, None, "INFO", "DATABASE", "CYAN", "All required SQL files found in the user path.")

  /** One copy and its console line per name, in order. */
  function CopyEvents(root: string, order: seq<string>): (r: seq<Event>)
    ensures Copies(r) == order
    ensures |Prints(r)| == |order|
    ensures forall i | 0 <= i < |order| :: Prints(r)[i] == CopyLine(root, order[i])
    ensures Executions(r) == [] && Commits(r) == 0
    decreases |order|
  {
    if |order| == 0 then []
    else
      var head := [Copied(order[0]), Printed(CopyLine(root, order[0]))];
      var tail := CopyEvents(root, order[1..]);
      ProjectionsAppend(head, tail);
      assert head[1..][1..] == [];
      assert Copies(head) == [order[0]] && Prints(head) == [CopyLine(root, order[0])];
      assert Executions(head) == [] && Commits(head) == 0;
      head + tail
  }

  /** The result of provisioning: the new listing and what was done. */
  datatype Provisioned = Provisioned(tree: seq<ScriptFile>, events: seq<Event>)

  /** Lines 176-196: copy each missing bundled script (in the set's iteration
      order `order`) or announce that nothing is missing. */
  function Provide(root: string, tree: seq<ScriptFile>, bundled: Bundle, order: seq<string>): (r: Provisioned)
    requires Enumerates(order, MissingNames(bundled, InitScripts(tree)))
    ensures r.tree == CopyAll(tree, bundled, order)
    ensures Copies(r.events) == order
    ensures |order| == |MissingNames(bundled, InitScripts(tree))|
    ensures |order| == 0 ==> r.events == [Printed(AllFoundLine)] && r.tree == tree
    ensures |order| > 0 ==>
      && |Prints(r.events)| == |order|
      && forall i | 0 <= i < |order| :: Prints(r.events)[i] == CopyLine(root, order[i])
    ensures Executions(r.events) == [] && Commits(r.events) == 0
  {
    EnumerationSize(order, MissingNames(bundled, InitScripts(tree)));
    if |order| == 0 then Provisioned(tree, [Printed(AllFoundLine)])
    else Provisioned(CopyAll(tree, bundled, order), CopyEvents(root, order))
  }

  /** A duplicate-free enumeration of a set is as long as the set is large. */
  lemma {:induction false} EnumerationSize(order: seq<string>, s: set<string>)
    requires Enumerates(order, s)
    ensures |order| == |s|
    decreases |order|
  {
    if |order| == 0 {
      assert s == {};
    } else {
      var rest := order[1..];
      assert Enumerates(rest, s - {order[0]}) by {
        forall x | x in s - {order[0]}
          ensures x in rest
        {
          var i :| 0 <= i < |order| && order[i] == x;
          assert i != 0;
          assert rest[i - 1] == x;
        }
      }
      EnumerationSize(rest, s - {order[0]});
    }
  }

  /** Found names are init-script names. */
  lemma FoundNamesAreInit(tree: seq<ScriptFile>)
    ensures forall n | n in Names(InitScripts(tree)) :: IsInitScriptName(n)
  {
  }

  /** One copy adds its name to the discovered names exactly when that name
      matches the init-script pattern, and removes none. */
  lemma CopyAddsInitName(tree: seq<ScriptFile>, name: string, units: seq<Unit>)
    ensures Names(InitScripts(CopyToRoot(tree, name, units)))
         == Names(InitScripts(tree)) + (if IsInitScriptName(name) then {name} else {})
  {
    var t := CopyToRoot(tree, name, units);
    var copy := ScriptFile(ScriptPath([], name), units);
    var lhs := Names(InitScripts(t));
    var rhs := Names(InitScripts(tree)) + (if IsInitScriptName(name) then {name} else {});
    assert forall f :: f in t <==> (f in tree && f.path != ScriptPath([], name)) || f == copy;
    forall m | m in lhs
      ensures m in rhs
    {
      var f :| f in InitScripts(t) && f.path.name == m;
      if f != copy {
        assert f in InitScripts(tree);
      }
    }
    forall m | m in rhs
      ensures m in lhs
    {
      if m == name {
        assert IsInitScriptName(name);
        assert copy in InitScripts(t);
      } else {
        var f :| f in InitScripts(tree) && f.path.name == m;
        assert f in InitScripts(t);
      }
    }
  }

  /** The names in `order` that match the init-script pattern. */
  function InitNames(order: seq<string>): set<string> {
    set n | n in order && IsInitScriptName(n)
  }

  /** The init names of a list are those of its head and of its tail. */
  lemma InitNamesCons(order: seq<string>)
    requires |order| > 0
    ensures InitNames(order) == (if IsInitScriptName(order[0]) then {order[0]} else {}) + InitNames(order[1..])
  {
    assert order == [order[0]] + order[1..];
  }

  /** After copying `order`, the discovered names are the old ones plus the
      copied names that match the init-script pattern. */
  lemma {:induction false} CopyAllNames(tree: seq<ScriptFile>, bundled: Bundle, order: seq<string>)
    requires forall i | 0 <= i < |order| :: order[i] in bundled
    ensures Names(InitScripts(CopyAll(tree, bundled, order))) == Names(InitScripts(tree)) + InitNames(order)
    decreases |order|
  {
    if |order| > 0 {
      var t := CopyToRoot(tree, order[0], bundled[order[0]]);
      CopyAddsInitName(tree, order[0], bundled[order[0]]);
      CopyAllNames(t, bundled, order[1..]);
      InitNamesCons(order);
    }
  }

  /** The names discovered after provisioning. */
  lemma ProvidedNames(root: string, tree: seq<ScriptFile>, bundled: Bundle, order: seq<string>)
    requires Enumerates(order, MissingNames(bundled, InitScripts(tree)))
    ensures Names(InitScripts(Provide(root, tree, bundled, order).tree)) == Names(InitScripts(tree)) + InitNames(order)
  {
    if |order| > 0 {
      CopyAllNames(tree, bundled, order);
    }
  }

  /** Re-discovery after provisioning: every bundled init script is now found,
      and what is still "missing" is exactly the bundled files whose names do
      not match `*_init_*.sql` (they are never discovered, so a second run
      copies them again). */
  lemma ProvideThenMissing(root: string, tree: seq<ScriptFile>, bundled: Bundle, order: seq<string>)
    requires Enumerates(order, MissingNames(bundled, InitScripts(tree)))
    ensures var after := Provide(root, tree, bundled, order).tree;
      && (forall n | n in bundled && IsInitScriptName(n) :: n in Names(InitScripts(after)))
      && MissingNames(bundled, InitScripts(after)) == set n | n in bundled && !IsInitScriptName(n)
  {
    ProvidedNames(root, tree, bundled, order);
    FoundNamesAreInit(tree);
    MissingAfter(bundled, Names(InitScripts(tree)), order);
  }

  /** The set algebra behind `ProvideThenMissing`, over the names alone. */
  lemma MissingAfter(bundled: Bundle, before: set<string>, order: seq<string>)
    requires forall n | n in before :: IsInitScriptName(n)
    requires Enumerates(order, bundled.Keys - before)
    ensures forall n | n in bundled && IsInitScriptName(n) :: n in before + InitNames(order)
    ensures bundled.Keys - (before + InitNames(order)) == set n | n in bundled && !IsInitScriptName(n)
  {
    forall n | n in bundled && IsInitScriptName(n)
      ensures n in before + InitNames(order)
    {
      if n !in before {
        assert n in bundled.Keys - before;
      }
    }
    var foreign := set n | n in bundled && !IsInitScriptName(n);
    forall n | n in bundled.Keys - (before + InitNames(order))
      ensures n in foreign
    {
      assert n in bundled.Keys - before;
    }
  }

  /** Provisioning is idempotent exactly when every bundled file is an init
      script: then the second run finds nothing missing and copies nothing. */
  lemma ProvideTwiceCopiesNothing(root: string, tree: seq<ScriptFile>, bundled: Bundle, order: seq<string>)
    requires Enumerates(order, MissingNames(bundled, InitScripts(tree)))
    ensures var after := Provide(root, tree, bundled, order).tree;
      MissingNames(bundled, InitScripts(after)) == {}
      <==> forall n | n in bundled :: IsInitScriptName(n)
  {
    ProvideThenMissing(root, tree, bundled, order);
    var after := Provide(root, tree, bundled, order).tree;
    if MissingNames(bundled, InitScripts(after)) == {} {
      forall n | n in bundled
        ensures IsInitScriptName(n)
      {
        assert n !in MissingNames(bundled, InitScripts(after));
      }
    }
  }
}

=== FILE: records.dfy ===
/** Values shared by every part of the session: the exceptions it raises or
    reports, its immutable settings, the arguments of a `log` call, and the
    console line `__print_log` renders. */
module Records {
  import opened Wrappers

  /** The exceptions the session raises, catches or reports. */
  datatype Exc =
    | MySqlError(errno: int, message: string)
    | PermissionError(message: string)
    | ValueError(message: string)
    | OtherError(name: string, message: string)

  /** MySQL's "Unknown database" error number (`errorcode.ER_BAD_DB_ERROR`). */
  const ER_BAD_DB_ERROR: int := 1049

  /** The exception's class name as a traceback prints it. */
  function ExcTypeName(e: Exc): string {
    match e
    case MySqlError(_, _) => "mysql.connector.errors.Error"
    case PermissionError(_) => "PermissionError"
    case ValueError(_) => "ValueError"
    case OtherError(name, _) => name
  }

  /** `str(e)`. */
  function ExcText(e: Exc): string {
    e.message
  }

  /** `"".join(traceback.format_exception(e))`: the frame lines are not
      modelled, only the closing `Type: message` line, which is never empty;
      an exception with an empty message prints just `Type`. */
  function FormatException(e: Exc): (r: string)
    ensures |r| > 0 && r[|r| - 1] == '\n'
  {
    if ExcText(e) == "" then ExcTypeName(e) + "\n"
    else ExcTypeName(e) + ": " + ExcText(e) + "\n"
  }

  /** The `[MYSQL]` section of the configuration: the keyword arguments of `connect`. */
  datatype Config = Config(host: string, user: string, password: string, database: string)

  /** What a session is constructed with; never changed afterwards. */
  datatype Settings = Settings(
    config: Config,
    isDictionary: bool,
    isConsoleLog: bool,
    isLogBacktrace: bool,
    raiseLogOnFail: bool,
    isProtected: bool,
    defaultSep: string,
    defaultOrigin: string,
    defaultLevel: int,
    /** the name of the session's own class (`self.__class__`) */
    sessionClass: string)

  /** The `text` argument of `log`: a string or an exception object. */
  datatype LogText = Plain(s: string) | Thrown(e: Exc)

  /** The arguments of one `log(...)` call; `None` means "not passed" and
      `origin` is the `module` argument. */
  datatype LogCall = LogCall(
    text: LogText,
    args: seq<string>,
    kwargs: seq<(string, string)>,
    level: Option<int>,
    sep: Option<string>,
    origin: Option<string>,
    err: Option<Exc>,
    console: Option<bool>,
    backtrace: Option<bool>,
    raiseOnFail: Option<bool>)

  /** A `log(level=..., text=..., ...)` call with no positional or keyword extras. */
  function SimpleCall(level: int, text: string, origin: Option<string>, err: Option<Exc>,
                      console: Option<bool>, backtrace: Option<bool>, raiseOnFail: Option<bool>): LogCall
  {
    LogCall(Plain(text), [], [], Some(level), None, origin, err, console, backtrace, raiseOnFail)
  }

  /** The keys of the colour table `LOG_COLORS`, as the level table of the
      class documentation lists them. */
  const Palette: set<string> := {"CYAN", "MAGENTA", "GREEN", "YELLOW", "RED", "LIGHTRED"}

  /** A console colour: an entry of `LOG_COLORS`, or colorama's `Fore.RED` fallback. */
  datatype Color = Named(name: string) | ForeRed

  /** Where the timestamp of a console line comes from: the clock at the time of
      printing, the clock when `__print_log` was defined (its frozen default
      argument), or the stored row's `log_date`. */
  datatype Stamp = Now | DefinitionTime | RowDate(date: string)

  /** One console line: `[stamp] [level] [origin] message`, followed on the
      next line by the backtrace when there is one. */
  datatype ConsoleLine = ConsoleLine(
    color: Color, stamp: Stamp, level: string, origin: string, message: string,
    backtrace: Option<string>)

  /** The arguments of one `__print_log(...)` call. */
  datatype PrintRequest = PrintRequest(
    log: Option<map<string, string>>,
    backtrace: Option<string>,
    defLevel: string,
    defOrigin: string,
    defColor: string,
    defMsg: string)

  /** `__print_log` with its default `def_level`, `def_module` and `def_color`. */
  function DefaultHeaderPrint(log: Option<map<string, string>>, backtrace: Option<string>, defMsg: string): PrintRequest {
    PrintRequest(log, backtrace, "ERROR", "logs", "LIGHTRED", defMsg)
  }
}

=== FILE: scripts.dfy ===
/** Discovery of the bootstrap scripts: the files below the script root whose
    name matches `*_init_*.sql`, ordered by the integer written before the
    first `_` of the name (`wavesql/database.py:173` and `:198`). */
module Scripts {
  import opened Wrappers
  import opened Records
  import Text
  import Sorting

  /** One statement unit of a script, as the SQL-file collaborator yields it. */
  datatype Unit = Unit(name: string, code: string)

  /** A file's place below the script root: its directories and its name. */
  datatype ScriptPath = ScriptPath(dirs: seq<string>, name: string)

  /** A file below the script root and the statement units it holds. */
  datatype ScriptFile = ScriptFile(path: ScriptPath, units: seq<Unit>)

  const InitMarker: string := "_init_"
  const SqlSuffix: string := ".sql"

  /** `name` holds the `_init_` marker at position `i`. */
  predicate MarkerAt(name: string, i: int) {
    0 <= i && i + |InitMarker| <= |name| && name[i..i + |InitMarker|] == InitMarker
  }

  /** `fnmatch(name, "*_init_*.sql")`: some `_init_` ends no later than where
      the closing `.sql` begins. */
  predicate IsInitScriptName(name: string) {
    && |name| >= |InitMarker| + |SqlSuffix|
    && name[|name| - |SqlSuffix|..] == SqlSuffix
    && exists i | 0 <= i <= |name| - |InitMarker| - |SqlSuffix| :: MarkerAt(name, i)
  }

  /** The files of `tree` that `rglob("*_init_*.sql")` yields, in listing order. */
  function InitScripts(tree: seq<ScriptFile>): (r: seq<ScriptFile>)
    ensures forall f :: f in r <==> f in tree && IsInitScriptName(f.path.name)
    ensures |r| <= |tree|
    decreases |tree|
  {
    if |tree| == 0 then []
    else
      var rest := InitScripts(tree[1..]);
      assert forall f :: f in tree <==> f == tree[0] || f in tree[1..] by {
        assert tree == [tree[0]] + tree[1..];
      }
      if IsInitScriptName(tree[0].path.name) then [tree[0]] + rest else rest
  }

  /** Discovery of one file: the file itself when its name matches, nothing otherwise. */
  lemma InitScriptsOne(f: ScriptFile)
    ensures InitScripts([f]) == if IsInitScriptName(f.path.name) then [f] else []
  {
    assert [f][1..] == [];
  }

  /** The glob is a filter that keeps listing order: the scripts of two
      listings one after the other are those of the first, then those of the
      second. With `InitScriptsOne` this pins the result down completely: no
      file is duplicated, dropped or moved. */
  lemma {:induction false} InitScriptsAppend(a: seq<ScriptFile>, b: seq<ScriptFile>)
    ensures InitScripts(a + b) == InitScripts(a) + InitScripts(b)
    decreases |a|
  {
    if |a| == 0 {
      assert a + b == b;
    } else {
      assert (a + b)[0] == a[0] && (a + b)[1..] == a[1..] + b;
      InitScriptsAppend(a[1..], b);
    }
  }

  /** The names of a list of files (`{p.name for p in paths}`). */
  function Names(files: seq<ScriptFile>): set<string> {
    set f | f in files :: f.path.name
  }

  predicate IsDigit(ch: char) {
    '0' <= ch <= '9'
  }

  predicate AllDigits(s: string) {
    forall i | 0 <= i < |s| :: IsDigit(s[i])
  }

  /** The value of a string of decimal digits. */
  function DigitsValue(s: string): nat
    requires AllDigits(s)
    decreases |s|
  {
    if |s| == 0 then 0
    else 10 * DigitsValue(s[..|s| - 1]) + (s[|s| - 1] as int - '0' as int)
  }

  /** `int(s)` on an ASCII literal: an optional sign followed by at least one
      digit; anything else is a `ValueError`, modelled as `None`. */
  function ParseInt(s: string): (r: Option<int>)
    ensures r.Some? ==> |s| > 0 && (IsDigit(s[0]) || s[0] == '+' || s[0] == '-')
  {
    if |s| > 1 && (s[0] == '+' || s[0] == '-') && AllDigits(s[1..]) then
      Some(if s[0] == '-' then 0 - DigitsValue(s[1..]) as int else DigitsValue(s[1..]) as int)
    else if |s| > 0 && AllDigits(s) then
      Some(DigitsValue(s))
    else
      None
  }

  /** `str(n)` for a natural number. */
  function Decimal(n: nat): (r: string)
    ensures |r| > 0 && AllDigits(r)
    decreases n
  {
    var d := ['0' + (n % 10) as char];
    if n < 10 then d else Decimal(n / 10) + d
  }

  /** Reading back a rendered number gives the number. */
  lemma {:induction false} DecimalValue(n: nat)
    ensures DigitsValue(Decimal(n)) == n
    decreases n
  {
    var s := Decimal(n);
    if n >= 10 {
      DecimalValue(n / 10);
      assert s[..|s| - 1] == Decimal(n / 10);
    }
  }

  /** `int(str(n)) == n`, and `int("-" + str(n)) == -n`: every integer is
      written by some file-name prefix that sorts it in its place. */
  lemma ParseDecimal(n: nat)
    ensures ParseInt(Decimal(n)) == Some(n)
    ensures ParseInt("-" + Decimal(n)) == Some(0 - n as int)
  {
    DecimalValue(n);
    assert ("-" + Decimal(n))[1..] == Decimal(n);
  }

  /** `str(n)` for any integer. */
  function IntText(n: int): string {
    if n < 0 then "-" + Decimal(0 - n) else Decimal(n)
  }

  /** `int(str(n)) == n` for every integer. */
  lemma ParseIntText(n: int)
    ensures ParseInt(IntText(n)) == Some(n)
  {
    if n < 0 {
      ParseDecimal(0 - n);
    } else {
      ParseDecimal(n);
    }
  }

  /** `int(Path(f).name.split("_")[0])`; `None` where Python raises `ValueError`. */
  function PrefixKey(f: ScriptFile): Option<int> {
    ParseInt(Text.Split(f.path.name, '_')[0])
  }

  /** The ordering key, defined on every file (the sort only runs once every key parsed). */
  function SortKey(f: ScriptFile): int {
    PrefixKey(f).GetOr(0)
  }

  /** Every file in `files` has an integer prefix. */
  predicate AllKeyed(files: seq<ScriptFile>) {
    forall i | 0 <= i < |files| :: PrefixKey(files[i]).Some?
  }

  /** `sorted(path.rglob("*_init_*.sql"), key=lambda x: int(Path(x).name.split("_")[0]))`.
      Fails exactly when some init script's prefix is not an integer; otherwise
      yields those scripts, each once, ordered by the integer prefix. */
  function Discover(tree: seq<ScriptFile>): (r: Result<seq<ScriptFile>, Exc>)
    ensures r.Success? <==> AllKeyed(InitScripts(tree))
    ensures r.Failure? ==> r.error.ValueError?
    ensures r.Success? ==> multiset(r.value) == multiset(InitScripts(tree))
    ensures r.Success? ==> AllKeyed(r.value)
    ensures r.Success? ==> forall i, j :: 0 <= i < j < |r.value| ==>
      PrefixKey(r.value[i]).value <= PrefixKey(r.value[j]).value
  {
    var found := InitScripts(tree);
    if AllKeyed(found) then
      var sorted := Sorting.Sort(found, SortKey);
      assert AllKeyed(sorted) by {
        forall i | 0 <= i < |sorted|
          ensures PrefixKey(sorted[i]).Some?
        {
          assert sorted[i] in multiset(found);
        }
      }
      Success(sorted)
    else
      Failure(ValueError("invalid literal for int() with base 10"))
  }

  /** Discovery is stable: scripts sharing a prefix keep their listing order. */
  lemma DiscoverIsStable(tree: seq<ScriptFile>, k: int)
    requires Discover(tree).Success?
    ensures Sorting.WithKey(Discover(tree).value, SortKey, k) == Sorting.WithKey(InitScripts(tree), SortKey, k)
  {
    Sorting.SortIsStable(InitScripts(tree), SortKey, k);
  }

  /** `<digit>_init_<mid>.sql` is an init-script name whose prefix is the digit. */
  lemma DigitInitName(d: char, mid: string)
    requires IsDigit(d)
    ensures var name := [d] + InitMarker + mid + SqlSuffix;
      && IsInitScriptName(name)
      && PrefixKey(ScriptFile(ScriptPath([], name), [])) == Some(d as int - '0' as int)
  {
    var name := [d] + InitMarker + mid + SqlSuffix;
    assert name[1..1 + |InitMarker|] == InitMarker;
    assert MarkerAt(name, 1);
    assert name[|name| - |SqlSuffix|..] == SqlSuffix;
    DigitPrefix(name);
  }

  /** A name that starts with one digit and `_` has that digit as its prefix. */
  lemma DigitPrefix(name: string)
    requires |name| >= 2 && IsDigit(name[0]) && name[1] == '_'
    ensures PrefixKey(ScriptFile(ScriptPath([], name), [])) == Some(name[0] as int - '0' as int)
  {
    var rest := Text.Split(name[1..], '_');
    assert name[1..][0] == '_' && name[1..][1..] == name[2..];
    assert rest == [""] + Text.Split(name[2..], '_');
    assert Text.Split(name, '_')[0] == [name[0]];
    var d := [name[0]];
    assert d[..|d| - 1] == "";
    assert AllDigits(d);
    assert DigitsValue(d) == name[0] as int - '0' as int;
    assert ParseInt(d) == Some(DigitsValue(d));
  }

  /** A listing of init scripts only is discovered whole. */
  lemma {:induction false} AllInitScripts(tree: seq<ScriptFile>)
    requires forall i | 0 <= i < |tree| :: IsInitScriptName(tree[i].path.name)
    ensures InitScripts(tree) == tree
    decreases |tree|
  {
    if |tree| > 0 {
      AllInitScripts(tree[1..]);
    }
  }

  /** A sample listing: `0_init_db.sql`, `2_init_tables.sql` and
      `1_init_logs.sql`, listed in that order, run as 0, 1, 2. */
  lemma DiscoverOrdersByPrefix()
    ensures
      var db := ScriptFile(ScriptPath([], "0_init_db.sql"), []);
      var tables := ScriptFile(ScriptPath([], "2_init_tables.sql"), []);
      var logs := ScriptFile(ScriptPath([], "1_init_logs.sql"), []);
      Discover([db, tables, logs]) == Success([db, logs, tables])
  {
    assert "0_init_db.sql" == ['0'] + InitMarker + "db" + SqlSuffix;
    assert "2_init_tables.sql" == ['2'] + InitMarker + "tables" + SqlSuffix;
    assert "1_init_logs.sql" == ['1'] + InitMarker + "logs" + SqlSuffix;
    DigitInitName('0', "db");
    DigitInitName('2', "tables");
    DigitInitName('1', "logs");
    var db := ScriptFile(ScriptPath([], "0_init_db.sql"), []);
    var tables := ScriptFile(ScriptPath([], "2_init_tables.sql"), []);
    var logs := ScriptFile(ScriptPath([], "1_init_logs.sql"), []);
    DiscoverThree(db, tables, logs);
  }

  /** Three init scripts whose prefixes read low, high, middle come out low, middle, high. */
  lemma DiscoverThree(a: ScriptFile, b: ScriptFile, c: ScriptFile)
    requires IsInitScriptName(a.path.name) && IsInitScriptName(b.path.name) && IsInitScriptName(c.path.name)
    requires PrefixKey(a).Some? && PrefixKey(b).Some? && PrefixKey(c).Some?
    requires PrefixKey(a).value <= PrefixKey(c).value < PrefixKey(b).value
    ensures Discover([a, b, c]) == Success([a, c, b])
  {
    var tree := [a, b, c];
    AllInitScripts(tree);
    assert AllKeyed(tree);
    Sorting.SortThree(a, b, c, SortKey);
  }
}

=== FILE: sorting.dfy ===
/** Python's `sorted(xs, key=...)` on integer keys: a stable sort. Modelled as an
    insertion sort and characterised by the three facts that pin a stable sort
    down: the result is ordered by key, it is a permutation of the input, and
    the elements that share a key keep their input order. */
module Sorting {

  /** `s` is non-decreasing by `key`. */
  ghost predicate SortedBy<T>(s: seq<T>, key: T -> int) {
    forall i, j :: 0 <= i < j < |s| ==> key(s[i]) <= key(s[j])
  }

  /** The elements of `s` whose key is `k`, in their order in `s`. */
  function WithKey<T>(s: seq<T>, key: T -> int, k: int): seq<T>
    decreases |s|
  {
    if |s| == 0 then []
    else (if key(s[0]) == k then [s[0]] else []) + WithKey(s[1..], key, k)
  }

  /** Puts `x` in front of the first element whose key is not smaller. */
  function Insert<T>(x: T, s: seq<T>, key: T -> int): (r: seq<T>)
    requires SortedBy(s, key)
    ensures |r| == |s| + 1
    ensures r[0] == x || (|s| > 0 && r[0] == s[0])
    ensures SortedBy(r, key)
    ensures multiset(r) == multiset(s) + multiset{x}
    decreases |s|
  {
    if |s| == 0 then [x]
    else if key(x) <= key(s[0]) then [x] + s
    else
      var rest := Insert(x, s[1..], key);
      assert s == [s[0]] + s[1..];
      [s[0]] + rest
  }

  /** `sorted(s, key=key)`. */
  function Sort<T>(s: seq<T>, key: T -> int): (r: seq<T>)
    ensures SortedBy(r, key)
    ensures multiset(r) == multiset(s)
    decreases |s|
  {
    if |s| == 0 then []
    else
      assert s == [s[0]] + s[1..];
      Insert(s[0], Sort(s[1..], key), key)
  }

  /** Taking the elements with key `k` distributes over a leading element. */
  lemma WithKeyCons<T>(a: T, t: seq<T>, key: T -> int, k: int)
    ensures WithKey([a] + t, key, k) == (if key(a) == k then [a] else []) + WithKey(t, key, k)
  {
    assert ([a] + t)[1..] == t;
  }

  /** Inserting `x` adds it in front of the elements that share its key. */
  lemma {:induction false} InsertKeepsKeyOrder<T>(x: T, s: seq<T>, key: T -> int, k: int)
    requires SortedBy(s, key)
    ensures WithKey(Insert(x, s, key), key, k) == (if key(x) == k then [x] else []) + WithKey(s, key, k)
    decreases |s|
  {
    if |s| == 0 {
      assert Insert(x, s, key) == [x] + s;
      WithKeyCons(x, s, key, k);
    } else if key(x) <= key(s[0]) {
      assert Insert(x, s, key) == [x] + s;
      WithKeyCons(x, s, key, k);
    } else {
      var rest := Insert(x, s[1..], key);
      assert Insert(x, s, key) == [s[0]] + rest;
      WithKeyCons(s[0], rest, key, k);
      InsertKeepsKeyOrder(x, s[1..], key, k);
      assert s == [s[0]] + s[1..];
      WithKeyCons(s[0], s[1..], key, k);
      assert key(s[0]) < key(x);
    }
  }

  /** The sort is stable: for every key, the elements with that key come out
      in the order they went in. */
  lemma {:induction false} SortIsStable<T>(s: seq<T>, key: T -> int, k: int)
    ensures WithKey(Sort(s, key), key, k) == WithKey(s, key, k)
    decreases |s|
  {
    if |s| > 0 {
      SortIsStable(s[1..], key, k);
      InsertKeepsKeyOrder(s[0], Sort(s[1..], key), key, k);
    }
  }

  /** Three elements keyed low, high, middle come out low, middle, high. */
  lemma SortThree<T>(a: T, b: T, c: T, key: T -> int)
    requires key(a) <= key(c) < key(b)
    ensures Sort([a, b, c], key) == [a, c, b]
  {
    SortTwo(b, c, key);
    assert [a, b, c][1..] == [b, c];
    InsertFront(a, [c, b], key);
  }

  /** Two elements keyed high, low swap places. */
  lemma SortTwo<T>(b: T, c: T, key: T -> int)
    requires key(c) < key(b)
    ensures Sort([b, c], key) == [c, b]
  {
    assert [b, c][1..] == [c];
    SortOne(c, key);
    InsertAfter(b, c, key);
  }

  lemma SortOne<T>(c: T, key: T -> int)
    ensures Sort([c], key) == [c]
  {
    assert [c][1..] == [];
  }

  lemma InsertAfter<T>(b: T, c: T, key: T -> int)
    requires key(c) < key(b)
    ensures Insert(b, [c], key) == [c, b]
  {
    assert [c][1..] == [];
  }

  /** An element no larger than the head goes in front. */
  lemma InsertFront<T>(x: T, s: seq<T>, key: T -> int)
    requires SortedBy(s, key) && |s| > 0 && key(x) <= key(s[0])
    ensures Insert(x, s, key) == [x] + s
  {
  }
}

=== FILE: text.dfy ===
/** The string operations the session performs: `sep.join(parts)`,
    `s.split(c)` and `s.strip()`. */
module Text {

  /** `sep.join(parts)`. */
  function Join(sep: string, parts: seq<string>): string
    decreases |parts|
  {
    if |parts| == 0 then ""
    else if |parts| == 1 then parts[0]
    else parts[0] + sep + Join(sep, parts[1..])
  }

  /** A join of two or more parts starts with the first part and the separator. */
  lemma JoinStep(sep: string, parts: seq<string>)
    requires |parts| >= 2
    ensures |Join(sep, parts)| >= |parts[0] + sep|
    ensures Join(sep, parts)[..|parts[0] + sep|] == parts[0] + sep
  {
    assert Join(sep, parts) == parts[0] + sep + Join(sep, parts[1..]);
  }

  /** A join whose last part is empty ends with the separator. */
  lemma {:induction false} JoinLast(sep: string, parts: seq<string>)
    requires |parts| >= 2 && parts[|parts| - 1] == ""
    ensures |Join(sep, parts)| >= |sep|
    ensures Join(sep, parts)[|Join(sep, parts)| - |sep|..] == sep
    decreases |parts|
  {
    if |parts| == 2 {
      assert parts[1..] == [""];
      assert Join(sep, parts) == parts[0] + sep;
    } else {
      JoinLast(sep, parts[1..]);
      var rest := Join(sep, parts[1..]);
      assert Join(sep, parts) == (parts[0] + sep) + rest;
    }
  }

  /** Each part followed by `sep`: the text of lines that all end in `sep`. */
  function Terminated(sep: string, parts: seq<string>): string
    decreases |parts|
  {
    if |parts| == 0 then "" else parts[0] + sep + Terminated(sep, parts[1..])
  }

  /** Joining with a final empty part ends every part with the separator. */
  lemma {:induction false} JoinTerminated(sep: string, parts: seq<string>)
    ensures Join(sep, parts + [""]) == Terminated(sep, parts)
    decreases |parts|
  {
    if |parts| == 0 {
      assert parts + [""] == [""];
    } else {
      assert (parts + [""])[1..] == parts[1..] + [""];
      JoinTerminated(sep, parts[1..]);
    }
  }

  /** Six terminated lines, written out. */
  lemma TerminatedSix(sep: string, a: string, b: string, c: string, d: string, e: string, f: string)
    ensures Terminated(sep, [a, b, c, d, e, f])
         == a + sep + b + sep + c + sep + d + sep + e + sep + f + sep
  {
    var t1 := Terminated(sep, [f]);
    assert Terminated(sep, []) == "";
    assert [f][1..] == [];
    assert t1 == f + sep + Terminated(sep, []);
    assert t1 == f + sep;
    var t2 := Terminated(sep, [e, f]);
    assert [e, f][1..] == [f];
    assert t2 == e + sep + f + sep;
    var t3 := Terminated(sep, [d, e, f]);
    assert [d, e, f][1..] == [e, f];
    assert t3 == d + sep + e + sep + f + sep;
    var t4 := Terminated(sep, [c, d, e, f]);
    assert [c, d, e, f][1..] == [d, e, f];
    assert t4 == c + sep + d + sep + e + sep + f + sep;
    var t5 := Terminated(sep, [b, c, d, e, f]);
    assert [b, c, d, e, f][1..] == [c, d, e, f];
    assert t5 == b + sep + c + sep + d + sep + e + sep + f + sep;
    assert [a, b, c, d, e, f][1..] == [b, c, d, e, f];
  }


  /** `s.split(c)` with an explicit one-character separator: every occurrence of
      `c` cuts, so the result always has one more piece than `s` has `c`s, and
      no piece contains `c`. */
  function Split(s: string, c: char): (parts: seq<string>)
    ensures |parts| >= 1
    ensures forall i :: 0 <= i < |parts| ==> c !in parts[i]
    decreases |s|
  {
    if |s| == 0 then [""]
    else
      var rest := Split(s[1..], c);
      if s[0] == c then [""] + rest
      else [[s[0]] + rest[0]] + rest[1..]
  }

  /** The first piece of `s.split(c)` is the longest prefix of `s` free of `c`. */
  lemma {:induction false} SplitHead(s: string, c: char)
    ensures var h := Split(s, c)[0];
      && h <= s
      && c !in h
      && (|h| < |s| ==> s[|h|] == c)
    decreases |s|
  {
    if |s| > 0 {
      SplitHead(s[1..], c);
    }
  }

  /** Joining the pieces of a split with the same character gives back the string. */
  lemma {:induction false} JoinSplit(s: string, c: char)
    ensures Join([c], Split(s, c)) == s
    decreases |s|
  {
    if |s| > 0 {
      var rest := Split(s[1..], c);
      JoinSplit(s[1..], c);
      if s[0] == c {
        assert Join([c], [""] + rest) == "" + [c] + Join([c], rest);
      } else if |rest| == 1 {
        assert Split(s, c) == [[s[0]] + rest[0]];
      } else {
        var parts := Split(s, c);
        assert parts[1..] == rest[1..];
        assert Join([c], rest) == rest[0] + [c] + Join([c], rest[1..]);
      }
    }
  }

  /** Splitting `p + t` where `p` holds no `c` glues `p` to the first piece of `t`. */
  lemma {:induction false} SplitAfterFreePrefix(p: string, t: string, c: char)
    requires c !in p
    ensures Split(p + t, c) == [p + Split(t, c)[0]] + Split(t, c)[1..]
    decreases |p|
  {
    if |p| > 0 {
      assert (p + t)[0] == p[0];
      assert (p + t)[1..] == p[1..] + t;
      SplitAfterFreePrefix(p[1..], t, c);
      assert [p[0]] + (p[1..] + Split(t, c)[0]) == p + Split(t, c)[0];
    } else {
      var parts := Split(t, c);
      assert p + t == t;
      assert p + parts[0] == parts[0];
      assert [parts[0]] + parts[1..] == parts;
    }
  }

  /** Splitting a join of `c`-free pieces with the same character gives back the pieces. */
  lemma {:induction false} SplitJoin(parts: seq<string>, c: char)
    requires |parts| >= 1
    requires forall i :: 0 <= i < |parts| ==> c !in parts[i]
    ensures Split(Join([c], parts), c) == parts
    decreases |parts|
  {
    if |parts| == 1 {
      SplitAfterFreePrefix(parts[0], "", c);
      assert parts[0] + "" == parts[0];
    } else {
      var t := Join([c], parts[1..]);
      SplitJoin(parts[1..], c);
      assert Join([c], parts) == parts[0] + ([c] + t);
      SplitAfterFreePrefix(parts[0], [c] + t, c);
      assert ([c] + t)[1..] == t;
      assert Split([c] + t, c) == [""] + parts[1..];
      assert parts[0] + "" == parts[0];
    }
  }

  /** The ASCII characters `str.strip()` removes: space, tab, the line and
      page breaks 0x0A-0x0D, and the separators 0x1C-0x1F. */
  predicate IsSpace(ch: char) {
    ch == ' ' || ch == '\t' || (0x0A <= ch as int <= 0x0D) || (0x1C <= ch as int <= 0x1F)
  }

  /** The end of the run of whitespace that starts at `i`. */
  function SpaceRun(s: string, i: nat): (j: nat)
    requires i <= |s|
    ensures i <= j <= |s|
    ensures forall k :: i <= k < j ==> IsSpace(s[k])
    ensures j < |s| ==> !IsSpace(s[j])
    decreases |s| - i
  {
    if i < |s| && IsSpace(s[i]) then SpaceRun(s, i + 1) else i
  }

  /** The start of the run of whitespace that ends just before `j`. */
  function SpaceRunBack(s: string, j: nat): (i: nat)
    requires j <= |s|
    ensures i <= j
    ensures forall k :: i <= k < j ==> IsSpace(s[k])
    ensures i > 0 ==> !IsSpace(s[i - 1])
    decreases j
  {
    if j > 0 && IsSpace(s[j - 1]) then SpaceRunBack(s, j - 1) else j
  }

  /** How many characters `s.lstrip()` drops. */
  function Lead(s: string): (n: nat)
    ensures n <= |s|
  {
    SpaceRun(s, 0)
  }

  /** `s.strip()`: the middle of `s` once leading and trailing whitespace are
      dropped; everything dropped is whitespace and the result neither starts
      nor ends with it. */
  function Strip(s: string): (r: string)
    ensures Lead(s) + |r| <= |s|
    ensures forall k :: 0 <= k < |r| ==> r[k] == s[Lead(s) + k]
    ensures forall k :: 0 <= k < Lead(s) ==> IsSpace(s[k])
    ensures forall k :: Lead(s) + |r| <= k < |s| ==> IsSpace(s[k])
    ensures |r| > 0 ==> !IsSpace(r[0]) && !IsSpace(r[|r| - 1])
  {
    var i := SpaceRun(s, 0);
    if i == |s| then ""
    else
      var j := SpaceRunBack(s, |s|);
      assert !IsSpace(s[i]);
      s[i..j]
  }

  /** `s.lstrip()`: the suffix left after the leading whitespace. */
  function StripStart(s: string): (r: string)
    ensures |r| <= |s| && r == s[|s| - |r|..]
    ensures forall k :: 0 <= k < |s| - |r| ==> IsSpace(s[k])
    ensures |r| > 0 ==> !IsSpace(r[0])
  {
    s[SpaceRun(s, 0)..]
  }

  /** `s.rstrip()`: the prefix left before the trailing whitespace. */
  function StripEnd(s: string): (r: string)
    ensures |r| <= |s| && r == s[..|r|]
    ensures forall k :: |r| <= k < |s| ==> IsSpace(s[k])
    ensures |r| > 0 ==> !IsSpace(r[|r| - 1])
  {
    s[..SpaceRunBack(s, |s|)]
  }

  /** `strip` is `lstrip` followed by `rstrip`: the two one-sided strips are
      an independent decomposition of `Strip`. */
  lemma StripIsBoth(s: string)
    ensures Strip(s) == StripEnd(StripStart(s))
  {
    var i := SpaceRun(s, 0);
    var t := s[i..];
    if i < |s| {
      BackRunShift(s, i, |t|);
      assert t[..SpaceRunBack(t, |t|)] == s[i..SpaceRunBack(s, |s|)];
    }
  }

  /** Scanning back over the whitespace of a suffix that starts with a
      non-space character stops where the scan over the whole string does. */
  lemma {:induction false} BackRunShift(s: string, i: nat, m: nat)
    requires i + m <= |s| && 1 <= m
    requires !IsSpace(s[i])
    ensures SpaceRunBack(s[i..], m) + i == SpaceRunBack(s, i + m)
    decreases m
  {
    var t := s[i..];
    assert t[m - 1] == s[i + m - 1];
    if IsSpace(s[i + m - 1]) {
      BackRunShift(s, i, m - 1);
    }
  }
}

=== FILE: trace.dfy ===
/** The observable steps of a bootstrap run, in the order `start` issues them. */
module Trace {
  import opened Records
  import opened Scripts

  /** One statement of the run plan: the file it comes from and the unit itself. */
  datatype Step = Step(path: ScriptPath, unit: Unit)

  /** A call the bootstrap issues. Calls that can raise are recorded when they
      are made; what they raised shows in the events that follow. */
  datatype Event =
    | Copied(name: string)            // shutil.copy of a bundled script into the script root
    | Printed(request: PrintRequest)  // a direct `__print_log(...)` call
    | Logged(call: LogCall)           // a `self.log(...)` call
    | Executed(step: Step)            // `cursor.execute(unit.code)` on the admin connection
    | Committed                       // `connection.commit()` on the admin connection
    | CursorClosed                    // `cursor.close()` on the admin connection
    | ConnectionClosed                // `connection.close()` on the admin connection

  /** The names copied, in copy order. */
  function Copies(events: seq<Event>): seq<string>
    decreases |events|
  {
    if |events| == 0 then []
    else (if events[0].Copied? then [events[0].name] else []) + Copies(events[1..])
  }

  /** The direct `__print_log` requests, in order. */
  function Prints(events: seq<Event>): seq<PrintRequest>
    decreases |events|
  {
    if |events| == 0 then []
    else (if events[0].Printed? then [events[0].request] else []) + Prints(events[1..])
  }

  /** The statements executed, in order. */
  function Executions(events: seq<Event>): seq<Step>
    decreases |events|
  {
    if |events| == 0 then []
    else (if events[0].Executed? then [events[0].step] else []) + Executions(events[1..])
  }

  /** How many commits were issued. */
  function Commits(events: seq<Event>): nat
    decreases |events|
  {
    if |events| == 0 then 0
    else (if events[0].Committed? then 1 else 0) + Commits(events[1..])
  }

  /** The projections distribute over concatenation. */
  lemma ProjectionsAppend(a: seq<Event>, b: seq<Event>)
    ensures Copies(a + b) == Copies(a) + Copies(b)
    ensures Prints(a + b) == Prints(a) + Prints(b)
    ensures Executions(a + b) == Executions(a) + Executions(b)
    ensures Commits(a + b) == Commits(a) + Commits(b)
  {
    CopiesAppend(a, b);
    PrintsAppend(a, b);
    ExecutionsAppend(a, b);
    CommitsAppend(a, b);
  }

  lemma {:induction false} CopiesAppend(a: seq<Event>, b: seq<Event>)
    ensures Copies(a + b) == Copies(a) + Copies(b)
    decreases |a|
  {
    if |a| == 0 {
      assert a + b == b;
    } else {
      assert (a + b)[0] == a[0] && (a + b)[1..] == a[1..] + b;
      CopiesAppend(a[1..], b);
    }
  }

  lemma {:induction false} PrintsAppend(a: seq<Event>, b: seq<Event>)
    ensures Prints(a + b) == Prints(a) + Prints(b)
    decreases |a|
  {
    if |a| == 0 {
      assert a + b == b;
    } else {
      assert (a + b)[0] == a[0] && (a + b)[1..] == a[1..] + b;
      PrintsAppend(a[1..], b);
    }
  }

  lemma {:induction false} ExecutionsAppend(a: seq<Event>, b: seq<Event>)
    ensures Executions(a + b) == Executions(a) + Executions(b)
    decreases |a|
  {
    if |a| == 0 {
      assert a + b == b;
    } else {
      assert (a + b)[0] == a[0] && (a + b)[1..] == a[1..] + b;
      ExecutionsAppend(a[1..], b);
    }
  }

  lemma {:induction false} CommitsAppend(a: seq<Event>, b: seq<Event>)
    ensures Commits(a + b) == Commits(a) + Commits(b)
    decreases |a|
  {
    if |a| == 0 {
      assert a + b == b;
    } else {
      assert (a + b)[0] == a[0] && (a + b)[1..] == a[1..] + b;
      CommitsAppend(a[1..], b);
    }
  }
}

=== FILE: wrappers.dfy ===
/** Option and Result, the two failure-carrying shapes the rest of the model uses
    in place of Python's `None` and raised exceptions. */
module Wrappers {

  /** `None` or a present value. */
  datatype Option<+T> = None | Some(value: T) {

    /** The value, or `default` when absent (Python's `x if x is not None else default`). */
    function GetOr(default: T): T {
      match this
      case Some(v) => v
      case None => default
    }
  }

  /** A value, or the error that stopped its computation. */
  datatype Result<+R, +E> = Success(value: R) | Failure(error: E)
}
